=== FILE: README.md ===
# laravel-api-docx, modelled in Dafny

This project models the core of `digitalcorehub/laravel-api-docx`. That is the
`php artisan api:docs` command of a Laravel package. The command works in five steps:

1. It collects the application's `api` routes.
2. It describes each route from the handler's doc comment. When the comment gives
   nothing, it asks an AI client, caching the answer.
3. With `--advanced`, it can enrich every entry with a bundle of AI-generated
   documentation.
4. It renders the entries as Markdown, an OpenAPI 3.0 document, a Postman v2.1
   collection and/or a ReDoc page.
5. It writes each output to its configured path.

As written, step 3 calls a method the generator does not define, so every
`--advanced` run with at least one route ends in an error (see "## Findings").
`GenerateDocsCommand.Handle` models the command as written;
`GenerateDocsCommand.HandleCorrected` models it with step 3 repaired.

Each PHP class is one Dafny module with pure functions. The places where PHP reaches
outside the program become parameters:

- **Reflection** is a `Codebase` map from class to method to doc comment.
- **The AI client** is a function from a call to an answer or an exception.
- **`json_encode` / `json_decode`** form a `Codec` over a JSON tree (`JsonTree.Json`).
- **Laravel's `Str::title`, `Str::snake` and `class_basename`** are an `Inflector`.
- **The cache file** is an abstract store.

Every operation that can call the AI client returns the list of calls it made. That
makes "no call was made" something a contract can state. Exceptions that end the
command are values of `Records.Fault`.

Supporting modules model PHP built-ins that the core uses:

- `Text`: `explode`, `implode`, `trim`, `strtoupper` and `ucfirst` over `seq<char>`.
- `JsonTree`: a string-keyed PHP array as an ordered list of distinct keys, where
  `$a[$k] = $v` overwrites in place or appends.
- `Placeholders`: the `preg_match_all('/\{([^}]+)\}/', ...)` scan shared by three
  classes.
- `RoutePaths`: the rooted path that both exporters build.

The program's behaviour also shows three things that look surprising but are not
errors. Each is stated as a lemma:

- A `--format` value that names no output writes nothing and still exits with 0
  (`GenerateDocsCommand.SelectedNone`).
- `--output` together with `--format=all` sends all four files to one path. Only the
  ReDoc page is left there (`GenerateDocsCommand.SharedOutputKeepsReDoc`).
- Every `api/...` route gets the same OpenAPI tag `Api`. The tag is taken from the URI
  before the `api/` prefix is removed (`OpenApiFormatter.ApiRoutesShareTag`).

## Model

| member | source | states |
|---|---|---|
| RouteCollector.KeptMethods | src/Services/RouteCollector.php:67-69 | the kept methods are exactly the given ones other than `HEAD`, never more of them |
| RouteCollector.FilterHttpMethodsRoundTrip | src/Services/RouteCollector.php:65-72 | splitting the pipe-joined string gives back exactly the non-`HEAD` methods in their original order, and `HEAD` is never among them |
| RouteCollector.KeptMethodsAppend | src/Services/RouteCollector.php:67-69 | filtering works piecewise, so the relative order of the kept methods is preserved |
| RouteCollector.ResolveHandler | src/Services/RouteCollector.php:35-44 | an action with `@` yields both a controller and a method; an existing class name yields that class with `__invoke`; anything else yields neither |
| RouteCollector.ControllerActionSplit | src/Services/RouteCollector.php:39-40 | for `Class@method` the controller and the method are the first two `@`-free pieces and the action name is those pieces joined by `@`, followed by nothing or by further `@` pieces |
| RouteCollector.Normalise | src/Services/RouteCollector.php:46-53 | the record keeps the URI and middleware; a missing route name becomes the empty string; controller and method are either both known or both null, and are what the action name resolves to; the methods string is the route's methods without `HEAD`, joined with `|` |
| RouteCollector.RecordOfRoute | src/Services/RouteCollector.php:27-56 | every collected record is the normalised form of an `api` route of the registry |
| RouteCollector.ApiRecords | src/Services/RouteCollector.php:24-33 | the reference collection keeps at most every route, and every record's URI starts with `api` |
| RouteCollector.ApiRecordsSingle | src/Services/RouteCollector.php:31-33 | one route is kept, as one normalised record, exactly when its URI starts with `api` |
| RouteCollector.ApiRecordsAppend | src/Services/RouteCollector.php:24-56 | a registry split in two is collected as the two halves one after the other, so registry order is kept |
| RouteCollector.Collect | src/Services/RouteCollector.php:20-57 | the loop returns exactly the reference collection, and an empty registry gives no routes |
| DocBlockParser.ResolveMethod | src/Services/DocBlockParser.php:53-66 | an unknown class fails; a named method that exists is used; an empty or unknown method name falls back to `__invoke` when the class has it and fails otherwise |
| DocBlockParser.ExtractSummary | src/Services/DocBlockParser.php:19-46 | an unresolvable handler or one without a doc comment gives null; a resolved method with a doc comment gives that comment's summary; a summary is never empty, never an `@` annotation, and starts and ends with a character outside `/`, `*`, tab and space |
| DocBlockParser.SplitLines | src/Services/DocBlockParser.php:33 | the comment splits into at least one line, and no line contains a line feed |
| DocBlockParser.SplitLinesOfJoin | src/Services/DocBlockParser.php:33 | lines without line feeds or trailing carriage returns come back unchanged from splitting their newline-join |
| DocBlockParser.SplitLinesOfCrlfJoin | src/Services/DocBlockParser.php:33 | lines without line feeds come back unchanged from splitting their `\r\n`-join: the carriage return of each Windows line end is dropped with its line feed |
| DocBlockParser.FirstProseIsFirst | src/Services/DocBlockParser.php:36-45 | the summary is the cleaned form of the first line whose cleaned form is prose, and there is none exactly when no line is prose |
| DocBlockParser.SummaryOf | src/Services/DocBlockParser.php:33-45 | a summary found in a comment is non-empty, not an `@` annotation, and starts and ends with a character outside the comment characters |
| DocBlockParser.SummaryOfIsFirst | src/Services/DocBlockParser.php:33-45 | the summary is the cleaned form of the comment's first line whose cleaned form is prose, and there is none exactly when no line is prose |
| DocBlockParser.CleanStarLine | src/Services/DocBlockParser.php:37 | a ` * text` comment line cleans to `text` |
| DocBlockParser.SummaryOfTypicalComment | src/Services/DocBlockParser.php:19-46 | on a `/** ... */` comment whose first line after the opening is prose, followed by a blank line and an `@return` tag, that prose line is the summary |
| DocBlockParser.SummaryOfTypicalCrlfComment | src/Services/DocBlockParser.php:19-46 | the same comment with `\r\n` line ends has the same summary: no carriage return reaches the cleaned lines |
| CacheManager.IsEnabled | src/Support/CacheManager.php:23-26 | reports the constructor's flag |
| CacheManager.Get | src/Support/CacheManager.php:31-44 | a value comes back exactly when the cache is enabled, its file holds an array and the key is in it, and then it is the stored value |
| CacheManager.Put | src/Support/CacheManager.php:49-69 | a disabled cache is unchanged; otherwise the file holds the previous array, or an empty one if it was missing or corrupt, with `key` set to `value` |
| CacheManager.PutThenGet | src/Support/CacheManager.php:31-69 | an enabled cache returns the value just put |
| CacheManager.PutKeepsOtherKeys | src/Support/CacheManager.php:49-69 | `put` changes no other key as seen through `get` |
| CacheManager.PutRepairsStore | src/Support/CacheManager.php:55-64 | after a `put` on an enabled cache the file is a well-formed array holding the old keys plus `key` |
| AiDocGenerator.IsEnabled | src/Services/AiDocGenerator.php:28-31 | reports the constructor's flag |
| AiDocGenerator.Generate | src/Services/AiDocGenerator.php:39-61 | a cache hit is returned with no client call and the store untouched; on a miss there is exactly one client call; its answer is returned, and its exception escapes; the answer is stored, under the route's key with every other entry kept, exactly when the cache is enabled and the answer is non-empty |
| AiDocGenerator.GenerateTwiceHitsCache | src/Services/AiDocGenerator.php:41-58 | with the cache enabled, a non-empty answer is served again from the cache without calling the client, whatever the client would now say |
| AiDocGenerator.EmptyAnswerNotCached | src/Services/AiDocGenerator.php:50-58 | an empty answer is returned but not stored, so the next run asks the client again |
| AdvancedAiGenerator.MakeAiRequest | src/Services/AdvancedAiGenerator.php:155-166 | a disabled generator returns `""` without a call; an enabled one makes exactly one prompt call and returns the answer, or `""` when the client throws |
| AdvancedAiGenerator.ParseParameters | src/Services/AdvancedAiGenerator.php:302-330 | the result is the path parameters followed by the elements of the decoded answer when it decodes to an array, and the path parameters alone otherwise |
| AdvancedAiGenerator.ParseJsonResponse | src/Services/AdvancedAiGenerator.php:335-344 | an answer that decodes to an array gives exactly that array; any other answer gives the empty array |
| AdvancedAiGenerator.ParseErrorResponses | src/Services/AdvancedAiGenerator.php:349-367 | an answer that decodes to an array gives exactly that array; any other answer gives the five fallback errors |
| AdvancedAiGenerator.FallbackErrorCodes | src/Services/AdvancedAiGenerator.php:360-366 | the fallback lists the status codes 400, 401, 404, 422 and 500, in that order |
| AdvancedAiGenerator.RequestExample | src/Services/AdvancedAiGenerator.php:92-105 | a first method other than POST, PUT or PATCH gives an empty array with no client call; for a body method, an enabled generator makes exactly one request-example prompt with 200 tokens and parses its answer as JSON, and a disabled one makes no call and parses the empty answer |
| AdvancedAiGenerator.TagSegments | src/Services/AdvancedAiGenerator.php:134-140 | no segment holds a `/`; the bare URI `api` has no segments; joined with `/` the segments rebuild the `/`-trimmed URI, minus its leading `api/` when it has one |
| AdvancedAiGenerator.ApiSegment | src/Services/AdvancedAiGenerator.php:136-139 | the first `explode` piece of a trimmed URI is `api` exactly when the URI is `api` or starts with `api/` |
| AdvancedAiGenerator.TagCandidates | src/Services/AdvancedAiGenerator.php:142-147 | every candidate tag comes from a segment that is not a `{...}` placeholder, and there are never more candidates than segments |
| AdvancedAiGenerator.TagCandidatesOne | src/Services/AdvancedAiGenerator.php:142-147 | a placeholder segment gives no candidate; any other segment gives its title-cased tag |
| AdvancedAiGenerator.TagCandidatesAppend | src/Services/AdvancedAiGenerator.php:142-147 | the candidates of two runs of segments are the candidates of the first followed by those of the second |
| AdvancedAiGenerator.Tags | src/Services/AdvancedAiGenerator.php:132-150 | there are as many tags as candidates, capped at three |
| AdvancedAiGenerator.CandidateAt | src/Services/AdvancedAiGenerator.php:142-147 | a non-placeholder segment's tag is the candidate right after those of the segments before it |
| AdvancedAiGenerator.TagsPosition | src/Services/AdvancedAiGenerator.php:142-149 | a non-placeholder segment preceded by fewer than three candidates gives the tag at that position: the tags are the first three non-placeholder segments, in order |
| AdvancedAiGenerator.PromptsShape | src/Services/AdvancedAiGenerator.php:40-48 | a disabled generator prompts nothing; an enabled one prompts six times for a body-carrying first method and five times otherwise, and the request-example prompt is made exactly in the first case |
| AdvancedAiGenerator.AskAll | src/Services/AdvancedAiGenerator.php:40-48 | the calls of the six prompting parts (tags make no call), in key order, are exactly the expected prompt list |
| AdvancedAiGenerator.FreshBundle | src/Services/AdvancedAiGenerator.php:40-48 | a freshly built bundle makes exactly the expected prompts; its tags are the route's tags; description and summary are the answers to their prompts; the parameters are the parameter answer parsed after the path parameters; the request example is that of `RequestExample`, empty for a bodiless method; the response example is the parsed response answer and the error responses the parsed error answer, so the five fallback errors when it is not an array; empty texts when disabled |
| AdvancedAiGenerator.GenerateComprehensiveDocs | src/Services/AdvancedAiGenerator.php:29-55 | an enabled cache hit is decoded with no calls and fails when the cached text is not a bundle; otherwise a fresh bundle is built and, with the cache enabled, stored encoded under its key |
| AdvancedAiGenerator.GenerateTwiceHitsCache | src/Services/AdvancedAiGenerator.php:31-54 | when a bundle's encoding decodes back to it, the second request for a route returns the stored bundle without calling the client |
| AdvancedAiGenerator.DisabledGeneratorIsLocal | src/Services/AdvancedAiGenerator.php:40-48 | a disabled generator makes no client call, and its bundle is built from the URI alone: empty texts, path parameters, empty examples, fallback errors and URI tags |
| MarkdownFormatter.EntryBlockLines | src/Services/MarkdownFormatter.php:28-43 | each block starts with the heading and the controller line; it has a name line exactly when the name is non-empty; it ends with the description, or the placeholder for a blank description, between blank lines |
| MarkdownFormatter.Lines | src/Services/MarkdownFormatter.php:21-26 | the document starts with the four header lines |
| MarkdownFormatter.BlockAt | src/Services/MarkdownFormatter.php:28-43 | entry `i`'s block sits between the blocks of the entries before it and those after it, so entries appear in input order |
| MarkdownFormatter.LineCount | src/Services/MarkdownFormatter.php:21-43 | the document has 4 lines plus 6 per entry plus one per named entry |
| MarkdownFormatter.Format | src/Services/MarkdownFormatter.php:45 | the text ends in exactly one line feed after a non-whitespace character; it is a prefix of the joined lines, and only whitespace of the joined lines is cut |
| RoutePaths.Rooted | src/Services/OpenApiFormatter.php:74-87 | the path always starts with `/`; an `api/` prefix is replaced by `/`; a path already starting with `/` is kept; any other gets `/` in front |
| RoutePaths.RootedIdempotent | src/Services/PostmanFormatter.php:160-170 | converting an already converted path changes nothing |
| RoutePaths.RootedKeepsNames | src/Services/OpenApiFormatter.php:77-86 | the conversion keeps every `{name}` placeholder, in order |
| Placeholders.Names | src/Services/PostmanFormatter.php:213-218 | every captured name is non-empty and contains no `}` |
| Placeholders.NamesInUriOrder | src/Services/OpenApiFormatter.php:183 | every captured name occurs braced in the URI, non-overlapping, left to right |
| Placeholders.NamesOfTemplate | src/Services/AdvancedAiGenerator.php:307 | on a URI built from brace-free pieces and placeholders, the scan gives back exactly the placeholder names, in order |
| Placeholders.NamesWithoutBrace | src/Services/PostmanFormatter.php:215 | a URI without `{` has no placeholders |
| Placeholders.PerName | src/Services/OpenApiFormatter.php:183-196 | one value per captured name, in URI order; the OpenAPI path parameters, the advanced generator's path parameters (src/Services/AdvancedAiGenerator.php:307-317) and the Postman URL variables (src/Services/PostmanFormatter.php:143-152) are all built this way |
| OpenApiFormatter.FirstLine | src/Services/OpenApiFormatter.php:152-153 | the first line has no line feed and no surrounding whitespace |
| OpenApiFormatter.FirstLineOf | src/Services/OpenApiFormatter.php:152-153 | text up to the first line feed, trimmed, is the first line whatever follows |
| OpenApiFormatter.FirstLineOfLine | src/Services/OpenApiFormatter.php:152-153 | a description without a line feed has its trimmed self as first line |
| OpenApiFormatter.FirstLineStays | src/Services/OpenApiFormatter.php:152-153 | a trimmed single line is its own first line |
| OpenApiFormatter.Shorten | src/Services/OpenApiFormatter.php:155-157 | a line of at most 100 characters is kept; a longer one becomes its first 97 characters followed by `...`, 100 in all |
| OpenApiFormatter.Summary | src/Services/OpenApiFormatter.php:150-158 | a summary is at most 100 characters, has no line feed and no surrounding whitespace |
| OpenApiFormatter.SummaryValue | src/Services/OpenApiFormatter.php:150-158 | a first line of at most 100 characters is the summary; a longer one is cut to its first 97 characters followed by `...` |
| OpenApiFormatter.SummaryIdempotent | src/Services/OpenApiFormatter.php:150-158 | summarising a summary changes nothing |
| OpenApiFormatter.ApiRoutesShareTag | src/Services/OpenApiFormatter.php:166-172 | every `api/...` route gets the tag made from `api` |
| OpenApiFormatter.FirstSegmentOf | src/Services/OpenApiFormatter.php:168-169 | the first segment of a trimmed URI is its leading `/`-free head |
| OpenApiFormatter.OperationKeys | src/Services/OpenApiFormatter.php:96-142 | an operation has summary, description, tags and responses; it also has `operationId` exactly for a non-empty name, `parameters` exactly for a URI with placeholders, and `requestBody` exactly for post, put and patch, in that order |
| OpenApiFormatter.AddEntry | src/Services/OpenApiFormatter.php:50-55 | an entry adds its converted path as a new last key unless that path is already present |
| OpenApiFormatter.AddMethodsLookup | src/Services/OpenApiFormatter.php:57-62 | after an entry's methods are added, a verb holds that entry's operation exactly when it is an allowed verb among the lower-cased methods, and otherwise keeps its old operation |
| OpenApiFormatter.AddEntryOperation | src/Services/OpenApiFormatter.php:49-62 | one entry changes only its own path, and only at the allowed verbs it lists |
| OpenApiFormatter.BuildPathsKeys | src/Services/OpenApiFormatter.php:45-66 | the paths are the distinct converted URIs, in order of first appearance |
| OpenApiFormatter.BuildPathsOperation | src/Services/OpenApiFormatter.php:45-66 | the operation at a path and verb is built from the last entry with that path that lists the verb, and is absent when no entry does |
| OpenApiFormatter.PathsJson | src/Services/OpenApiFormatter.php:33 | non-empty paths are encoded as an object with the same keys in the same order |
| OpenApiFormatter.Document | src/Services/OpenApiFormatter.php:18-37 | the document has four top-level fields, starting with `openapi: 3.0.0` and ending with the built paths |
| PostmanFormatter.OfController | src/Services/PostmanFormatter.php:77-87 | the reference grouping holds exactly the entries of that controller |
| PostmanFormatter.GroupKeys | src/Services/PostmanFormatter.php:77-87 | the grouping has one key per distinct controller, in order of first appearance |
| PostmanFormatter.GroupLookup | src/Services/PostmanFormatter.php:81-84 | each controller's key holds exactly that controller's entries in input order, and a controller no entry names has no key |
| PostmanFormatter.EntryInItsGroup | src/Services/PostmanFormatter.php:82-83 | every entry lands in its own controller's group |
| PostmanFormatter.ResourceOfApiRoute | src/Services/PostmanFormatter.php:184-185 | for `api/<resource>` and `api/<resource>/...` the request name's resource is the segment after `api` |
| PostmanFormatter.PathSegmentsRejoin | src/Services/PostmanFormatter.php:121 | the URL's path segments joined with `/` give back the converted URI trimmed of `/` |
| PostmanFormatter.UrlKeys | src/Services/PostmanFormatter.php:118-152 | the URL has raw, host and path, plus `variable` exactly when the URI has a placeholder |
| PostmanFormatter.RequestKeys | src/Services/PostmanFormatter.php:102-140 | the request has method, header, url and description, plus `body` exactly when the first method is POST, PUT or PATCH |
| PostmanFormatter.ItemsSpec | src/Services/PostmanFormatter.php:48-68 | there is one folder per distinct controller, in order of first appearance, and each folder lists exactly its controller's requests in input order |
| PostmanFormatter.Collection | src/Services/PostmanFormatter.php:19-39 | the collection has info, item and variable, in that order; item holds the folders, and variable holds only `base_url` |
| GenerateDocsCommand.Entry | src/Commands/GenerateDocsCommand.php:89-100 | the entry copies the route; a null controller or method becomes `Closure` or `invoke`; a missing or blank description becomes the placeholder sentence, so it is never blank |
| GenerateDocsCommand.Describe | src/Commands/GenerateDocsCommand.php:76-100 | the AI is called only for a route with a controller and a method, only when the doc comment gave nothing and the generator is enabled; otherwise the entry comes from the doc comment with no call, and only the client's exception ends the step |
| GenerateDocsCommand.Documentation | src/Commands/GenerateDocsCommand.php:73-101 | a completed loop gives one entry per route; with the basic generator disabled the loop always completes with no call and the cache unchanged |
| GenerateDocsCommand.DocumentationDescribes | src/Commands/GenerateDocsCommand.php:75-101 | entry `i` describes route `i` |
| GenerateDocsCommand.DescribeAll | src/Commands/GenerateDocsCommand.php:75-101 | the loop, which stops at the first exception, computes the reference documentation list |
| GenerateDocsCommand.CrashSticks | src/Commands/GenerateDocsCommand.php:75-101 | once an exception ends the loop, later routes change nothing |
| GenerateDocsCommand.EnhanceAsWritten | src/Commands/GenerateDocsCommand.php:151-167 | as written, the enhancement leaves an empty list unchanged and fails on any other with the undefined-method error, before any client call |
| GenerateDocsCommand.AdvancedRunAlwaysCrashes | src/Commands/GenerateDocsCommand.php:158 | any run that reaches the enhancement, which needs at least one route, ends with the undefined-method error |
| GenerateDocsCommand.EnhanceOne | src/Commands/GenerateDocsCommand.php:155-163 | an enabled generator merges the entry with its bundle, a disabled one leaves it alone with no call, and only a cached non-bundle fails |
| GenerateDocsCommand.Enhance | src/Commands/GenerateDocsCommand.php:151-167 | each entry, in order, is merged with its bundle when the generator is enabled and unchanged otherwise |
| GenerateDocsCommand.EnhanceDisabled | src/Commands/GenerateDocsCommand.php:155-164 | a disabled advanced generator leaves the list, the cache and the client alone |
| GenerateDocsCommand.OutputPath | src/Commands/GenerateDocsCommand.php:222-223 | a non-empty custom path wins; otherwise a configured path is used as it is, and without one the default file under the base path |
| GenerateDocsCommand.SelectedKinds | src/Commands/GenerateDocsCommand.php:131-145 | an output is produced exactly when the format names it or is `all` |
| GenerateDocsCommand.SelectedAll | src/Commands/GenerateDocsCommand.php:131-145 | `all` produces Markdown, OpenAPI, Postman and ReDoc, in that order |
| GenerateDocsCommand.SelectedAlone | src/Commands/GenerateDocsCommand.php:131-145 | a kind's own name produces that output alone |
| GenerateDocsCommand.SelectedNone | src/Commands/GenerateDocsCommand.php:131-145 | any other format value produces nothing |
| GenerateDocsCommand.Writes | src/Commands/GenerateDocsCommand.php:219-275 | one write per selected output, in order, to that output's path with that output's content |
| GenerateDocsCommand.FilesKeepLastWrite | src/Commands/GenerateDocsCommand.php:226 | a written path holds what its last write put there |
| GenerateDocsCommand.SharedOutputKeepsReDoc | src/Commands/GenerateDocsCommand.php:223 | `--output` with `--format=all` leaves only the ReDoc page at that path |
| GenerateDocsCommand.GenerateDocumentation | src/Commands/GenerateDocsCommand.php:124-167 | as written: without `--advanced`, or on an empty list, the selected outputs are written from the list as it is, with no call and the cache unchanged; with `--advanced` and any entry it fails with the undefined-method error, writing nothing |
| GenerateDocsCommand.GenerateDocumentationCorrected | src/Commands/GenerateDocsCommand.php:124-146 | corrected: without `--advanced`, or with the advanced generator disabled, the selected outputs are written from the list as it is, with no call and the cache unchanged; it can only fail on a cached bundle that is not an array |
| GenerateDocsCommand.Prepare | src/Commands/GenerateDocsCommand.php:63-114 | no API routes finishes with exit 0; an exception while describing aborts; watch mode keeps the described entries; otherwise the described entries go on to `generateDocumentation` |
| GenerateDocsCommand.Handle | src/Commands/GenerateDocsCommand.php:63-167 | as written: no API routes exits with 0, no writes and no call; a run without `--advanced` exits with 0 after writing the outputs of the described entries; a run with `--advanced` and at least one route ends in the undefined-method error with nothing written; an exception while describing the routes aborts the command with it; with `--watch`, a completed description enters watch mode with the described entries, and watch mode is entered only on request; with the basic generator off no client call is made |
| GenerateDocsCommand.HandleCorrected | src/Commands/GenerateDocsCommand.php:63-119 | corrected: no API routes exits with 0; an exception while describing aborts, and `--watch` enters watch mode with the described entries, as in `Handle`; otherwise with `--advanced` the outcome is that of enhancing the described entries — an exit with 0 writing the enhanced entries, or the enhancement's exception; with `--advanced` not given or the advanced generator off it exits with 0 writing the outputs of the entries as described, and with the basic generator off as well no client call is made |

## Left out

- The watch loop (`watchForChanges`, `getLastModifiedTime`) is not modelled. It polls file times and sleeps forever. `Handle` ends in `Watching` with the documentation it would watch.
- File writes and `ensureDirectoryExists` are not modelled. A run returns its writes, and `Files` gives the resulting contents.
- Console messages (`info`, `warn`) are not modelled. They are output only.
- JSON text encoding and decoding are not modelled. `json_encode` and `json_decode` are a `Codec` parameter about which only stated assumptions are used.
- `Str::title`, `Str::snake` and `class_basename` are uninterpreted functions of an `Inflector` parameter.
- The ReDoc page generator's HTML is not modelled. The ReDoc write carries the OpenAPI document the page is built from. `ReDocGenerator` is not part of this model.
- The AI client's providers and their HTTP calls are not modelled. `OpenAiClient` is not part of this model. The client is a function from a call to an answer or an exception.
- The prompt texts of the advanced generator are not modelled. A prompt call is identified by its kind, route and token limit.
- `ReflectionClass::hasMethod` is case-insensitive in PHP. `ResolveMethod` looks method names up exactly.
- `route instanceof Route` is not modelled: the registry holds only routes.
- `Normalise` does not model `Arr::wrap` of a single middleware string: middleware is already a list.
- `Merge` models `array_merge` only for the seven bundle keys the generator builds. A cached bundle of any other shape is either decoded to a bundle by the codec or reported as not an array.
- `Text.Trim` uses PHP's default `trim` set. Laravel's `Str::trim` in the Markdown formatter also trims Unicode spaces, which are not modelled.
- `PHP_EOL` is taken to be the line feed.
- `OutputPath` takes configuration values as strings. A non-string configured path, cast with `(string)`, is not modelled.
- `OpenApiFormatter.Shorten` counts characters of `seq<char>`. `Str::length` counts UTF-8 code points, which agree for this model's strings.
- `PostmanFormatter.GroupByController` does not model the `?? 'Unknown'` fallback. Every entry has a controller string, as `EntryInItsGroup` states.
- `PostmanFormatter.BaseUrlVariable` and `OpenApiFormatter.Document` take `app.url` as a parameter. The `http://localhost` default of `config()` belongs to the caller.
- ParseParameters: an answer that decodes to an object contributes its values only. PHP's `array_merge` keeps the object's non-numeric keys, so the parameters become a keyed array that `json_encode` would emit as an object; the model's result is always a list.
- `JsonTree.Json` has no fractional numbers. An answer holding a float has no counterpart in the model, so the codec cannot return it.
- The service provider's wiring and the `digitalcorehub_config` helper are not modelled. Their values are the parameters of `Services` and `Environment`.

## Findings

| source | as written | input that shows it | evidently intended | confidence | as-written member | corrected member |
|---|---|---|---|---|---|---|
| src/Commands/GenerateDocsCommand.php:158 | `enhanceWithAdvancedAi` calls `$this->advancedAiGenerator->isEnabled()`, but `AdvancedAiGenerator` defines no such method (only a private `enabled` flag), so the first iteration throws `Error` | any run with `--advanced` and at least one API route (an empty route list returns before this point) | enrich each entry when the advanced generator is enabled and keep it otherwise, exiting with 0 as tests/Feature/Commands/GenerateDocsCommandTest.php:140-150 expects | high; not executed | GenerateDocsCommand.EnhanceAsWritten (with GenerateDocsCommand.AdvancedRunAlwaysCrashes, used by GenerateDocsCommand.GenerateDocumentation and GenerateDocsCommand.Handle) | GenerateDocsCommand.Enhance (with GenerateDocsCommand.EnhanceDisabled, used by GenerateDocsCommand.GenerateDocumentationCorrected and GenerateDocsCommand.HandleCorrected) |

=== FILE: advanced_ai_generator.dfy ===
/** `AdvancedAiGenerator`: a seven-key documentation bundle per route, from
    up to five AI prompts plus local derivations, cached under
    `"comprehensive_<http_methods>:<uri>"`. */
module AdvancedAiGenerator {
  import opened Optional
  import opened Text
  import opened JsonTree
  import opened Records
  import opened CacheManager
  import opened AiClient
  import opened Placeholders

  /** The generator's constructor flag. */
  datatype Generator = Generator(enabled: bool)

  /** The JSON text layer: `json_decode($text, true)` of an AI answer (`None`
      when it yields null), and the encoding of a bundle into the cache and
      its decoding back (`None` when the cached text does not decode to an
      array). */
  datatype Codec = Codec(
    decode: string -> Option<Json>,
    encodeBundle: Bundle -> string,
    decodeBundle: string -> Option<Bundle>)

  /** `json_decode('')` is null. */
  predicate DecodesEmptyToNull(codec: Codec) {
    codec.decode("") == None
  }

  function CacheKey(entry: DocEntry): string {
    "comprehensive_" + entry.httpMethods + ":" + entry.uri
  }

  /** An AI answer and the client calls made to get it. */
  datatype Asked = Asked(text: string, calls: seq<Call>)

  function PromptCall(kind: PromptKind, subject: DocEntry, maxTokens: nat): Call {
    Call("", "", PromptContext(kind, subject, maxTokens))
  }

  /** `makeAiRequest`: `""` without calling the client when the generator is
      disabled; otherwise one call with empty controller and method, whose
      exception is caught and turned into `""`. */
  function MakeAiRequest(g: Generator, client: Client, kind: PromptKind, subject: DocEntry, maxTokens: nat): (r: Asked)
    ensures !g.enabled ==> r == Asked("", [])
    ensures g.enabled ==> r.calls == [PromptCall(kind, subject, maxTokens)]
    ensures g.enabled ==> r.text == (match Ask(client, PromptCall(kind, subject, maxTokens))
                                     case Answer(t) => t
                                     case Threw => "")
  {
    if !g.enabled then Asked("", [])
    else
      var call := PromptCall(kind, subject, maxTokens);
      match Ask(client, call)
      case Answer(t) => Asked(t, [call])
      case Threw => Asked("", [call])
  }

  /** The entry derived for one `{name}` placeholder. */
  function PathParameter(name: string): Json {
    JObject([
      ("name", JStr(name)),
      ("in", JStr("path")),
      ("required", JBool(true)),
      ("type", JStr("string")),
      ("description", JStr("The " + name + " parameter")),
      ("example", JStr("example-value"))])
  }

  /** One path parameter per placeholder, in URI order. */
  function PathParameters(uri: string): seq<Json> {
    PerName(uri, PathParameter)
  }

  /** The elements `array_merge` appends from a decoded array. */
  function Elements(j: Json): seq<Json>
    requires IsArray(j)
  {
    match j
    case JList(items) => items
    case JObject(fields) => seq(|fields|, i requires 0 <= i < |fields| => fields[i].1)
  }

  /** `parseParametersResponse`: the derived path parameters, followed by the
      AI's entries when its answer decodes to an array. */
  function ParseParameters(codec: Codec, response: string, uri: string): (r: seq<Json>)
    ensures |r| >= |Names(uri)|
    ensures r[..|Names(uri)|] == PathParameters(uri)
    ensures codec.decode(response).Some? && IsArray(codec.decode(response).value) ==>
      r == PathParameters(uri) + Elements(codec.decode(response).value)
    ensures !(codec.decode(response).Some? && IsArray(codec.decode(response).value)) ==>
      r == PathParameters(uri)
  {
    var derived := PathParameters(uri);
    var decoded := codec.decode(response);
    if decoded.Some? && IsArray(decoded.value) then derived + Elements(decoded.value) else derived
  }

  /** `parseJsonResponse`: the decoded array, or `[]`. */
  function ParseJsonResponse(codec: Codec, response: string): (r: Json)
    ensures IsArray(r)
    ensures codec.decode(response).Some? && IsArray(codec.decode(response).value) ==>
      r == codec.decode(response).value
    ensures !(codec.decode(response).Some? && IsArray(codec.decode(response).value)) ==> r == JList([])
  {
    var decoded := codec.decode(response);
    if decoded.Some? && IsArray(decoded.value) then decoded.value else JList([])
  }

  function ErrorResponse(status: int, message: string, description: string): Json {
    JObject([("status_code", JInt(status)), ("message", JStr(message)), ("description", JStr(description))])
  }

  /** The error list used when the AI's answer is not a JSON array. */
  const FallbackErrors: seq<Json> := [
    ErrorResponse(400, "Bad Request", "Invalid request data"),
    ErrorResponse(401, "Unauthorized", "Authentication required"),
    ErrorResponse(404, "Not Found", "Resource not found"),
    ErrorResponse(422, "Validation Error", "Request validation failed"),
    ErrorResponse(500, "Server Error", "Internal server error")]

  /** `parseErrorResponses`: the decoded array, or the fallback list. */
  function ParseErrorResponses(codec: Codec, response: string): (r: Json)
    ensures IsArray(r)
    ensures codec.decode(response).Some? && IsArray(codec.decode(response).value) ==>
      r == codec.decode(response).value
    ensures !(codec.decode(response).Some? && IsArray(codec.decode(response).value)) ==>
      r == JList(FallbackErrors)
  {
    var decoded := codec.decode(response);
    if decoded.Some? && IsArray(decoded.value) then decoded.value else JList(FallbackErrors)
  }

  /** The fallback list has five entries with status codes 400, 401, 404, 422
      and 500, in that order. */
  lemma FallbackErrorCodes()
    ensures |FallbackErrors| == 5
    ensures forall i :: 0 <= i < 5 ==>
      Member(FallbackErrors[i], "status_code") == Some(JInt([400, 401, 404, 422, 500][i]))
  {
  }

  /** `generateRequestExample`: no prompt unless the first method takes a
      body; then one request-example prompt of 200 tokens, whose answer is
      parsed as a JSON array. */
  function RequestExample(g: Generator, client: Client, codec: Codec, entry: DocEntry): (r: (Json, seq<Call>))
    ensures !HasBody(FirstMethod(entry.httpMethods)) ==> r == (JList([]), [])
    ensures IsArray(r.0)
    ensures forall c :: c in r.1 ==> c.context.PromptContext? && c.context.kind == RequestExamplePrompt
    ensures HasBody(FirstMethod(entry.httpMethods)) && g.enabled ==>
      r.1 == [PromptCall(RequestExamplePrompt, entry, 200)] &&
      r.0 == ParseJsonResponse(codec, MakeAiRequest(g, client, RequestExamplePrompt, entry, 200).text)
    ensures HasBody(FirstMethod(entry.httpMethods)) && !g.enabled ==> r.1 == [] && r.0 == ParseJsonResponse(codec, "")
  {
    if !HasBody(FirstMethod(entry.httpMethods)) then (JList([]), [])
    else
      var asked := MakeAiRequest(g, client, RequestExamplePrompt, entry, 200);
      (ParseJsonResponse(codec, asked.text), asked.calls)
  }

  /** The `/\{.*\}/` test on a URI segment: a `{` followed later by a `}`
      with no line feed between them (`.` does not match a newline). */
  predicate LooksLikePlaceholder(segment: string) {
    exists i, j :: 0 <= i < j < |segment| && segment[i] == '{' && segment[j] == '}' &&
      forall k :: i < k < j ==> segment[k] != '\n'
  }

  /** The segments of `trim($uri, '/')`, without a leading `api` one: no
      segment holds a `/`, and joined with `/` they give back the trimmed
      URI, less its `api/` prefix when it has one. */
  function TagSegments(uri: string): (r: seq<string>)
    ensures forall i :: 0 <= i < |r| ==> '/' !in r[i]
    ensures var t := Trim(uri, {'/'}); t == "api" ==> r == []
    ensures var t := Trim(uri, {'/'}); StartsWith(t, "api/") ==> Join(r, "/") == t[4..]
    ensures var t := Trim(uri, {'/'}); t != "api" && !StartsWith(t, "api/") ==> Join(r, "/") == t
  {
    var t := Trim(uri, {'/'});
    var all := Split(t, '/');
    ApiSegment(t);
    JoinSplit(t, '/');
    JoinSplit(t[if |t| >= 4 then 4 else 0..], '/');
    if all[0] == "api" then all[1..] else all
  }

  /** The first `/`-segment is `api` exactly for `api` itself and for text
      starting with `api/`; in the second case the rest splits as the text
      after the prefix. */
  lemma ApiSegment(t: string)
    ensures t == "api" ==> Split(t, '/') == ["api"]
    ensures StartsWith(t, "api/") ==> Split(t, '/') == ["api"] + Split(t[4..], '/')
    ensures t != "api" && !StartsWith(t, "api/") ==> Split(t, '/')[0] != "api"
  {
    SplitHead(t, '/');
    if t == "api" {
      SplitNoSeparator(t, '/');
    } else if StartsWith(t, "api/") {
      assert t == "api" + ['/'] + t[4..];
      SplitAround("api", t[4..], '/');
    }
  }

  /** `ucfirst(str_replace('-', ' ', $segment))`. */
  function TagOf(segment: string): string {
    UcFirst(ReplaceChar(segment, '-', ' '))
  }

  /** The tag of every segment that is not a placeholder, in order. */
  function TagCandidates(segments: seq<string>): (r: seq<string>)
    ensures |r| <= |segments|
    ensures forall k :: 0 <= k < |r| ==>
      exists i :: 0 <= i < |segments| && !LooksLikePlaceholder(segments[i]) && r[k] == TagOf(segments[i])
    decreases |segments|
  {
    if |segments| == 0 then []
    else
      var rest := TagCandidates(segments[1..]);
      assert forall k :: 0 <= k < |rest| ==>
        exists i :: 1 <= i < |segments| && !LooksLikePlaceholder(segments[i]) && rest[k] == TagOf(segments[i]) by {
        forall k | 0 <= k < |rest|
          ensures exists i :: 1 <= i < |segments| && !LooksLikePlaceholder(segments[i]) && rest[k] == TagOf(segments[i])
        {
          var i :| 0 <= i < |segments[1..]| && !LooksLikePlaceholder(segments[1..][i]) && rest[k] == TagOf(segments[1..][i]);
          assert segments[1..][i] == segments[i + 1];
        }
      }
      (if LooksLikePlaceholder(segments[0]) then [] else [TagOf(segments[0])]) + rest
  }

  /** A single segment yields its tag unless it looks like a placeholder. */
  lemma TagCandidatesOne(segment: string)
    ensures TagCandidates([segment]) == if LooksLikePlaceholder(segment) then [] else [TagOf(segment)]
  {
    assert [segment][1..] == [];
  }

  /** Segments are tagged one by one, so the candidates of two runs of
      segments are those of the first followed by those of the second. */
  lemma {:induction false} TagCandidatesAppend(a: seq<string>, b: seq<string>)
    ensures TagCandidates(a + b) == TagCandidates(a) + TagCandidates(b)
    decreases |a|
  {
    if |a| > 0 {
      TagCandidatesAppend(a[1..], b);
      assert (a + b)[1..] == a[1..] + b;
      assert (a + b)[0] == a[0];
    } else {
      assert a + b == b;
    }
  }

  /** `generateTags`: the candidates cut to three. */
  function Tags(uri: string): (r: seq<string>)
    ensures |r| <= 3
    ensures |r| == if |TagCandidates(TagSegments(uri))| < 3 then |TagCandidates(TagSegments(uri))| else 3
  {
    var c := TagCandidates(TagSegments(uri));
    if |c| > 3 then c[..3] else c
  }

  /** A segment that is no placeholder gives the candidate right after
      those of the segments before it. */
  lemma CandidateAt(segments: seq<string>, i: nat)
    requires i < |segments|
    requires !LooksLikePlaceholder(segments[i])
    ensures var k := |TagCandidates(segments[..i])|;
      k < |TagCandidates(segments)| && TagCandidates(segments)[k] == TagOf(segments[i])
  {
    var before, at, after := segments[..i], [segments[i]], segments[i + 1..];
    assert segments == before + at + after;
    TagCandidatesAppend(before + at, after);
    TagCandidatesAppend(before, at);
    TagCandidatesOne(segments[i]);
    var pre := TagCandidates(before);
    assert TagCandidates(segments) == pre + [TagOf(segments[i])] + TagCandidates(after);
  }

  /** A segment that is no placeholder and has fewer than three such
      segments before it is tagged, right after their tags. */
  lemma TagsPosition(uri: string, i: nat)
    requires i < |TagSegments(uri)|
    requires !LooksLikePlaceholder(TagSegments(uri)[i])
    requires |TagCandidates(TagSegments(uri)[..i])| < 3
    ensures var k := |TagCandidates(TagSegments(uri)[..i])|;
      k < |Tags(uri)| && Tags(uri)[k] == TagOf(TagSegments(uri)[i])
  {
    var segments := TagSegments(uri);
    CandidateAt(segments, i);
  }

  /** The result of `generateComprehensiveDocs`: a bundle with the cache as
      left and the client calls made, or the `TypeError` raised when a
      cached text does not decode to an array. */
  datatype Outcome =
    | Produced(bundle: Bundle, cache: Cache, calls: seq<Call>)
    | Failed(fault: Fault)

  /** The prompts a cache miss issues, in source order: description,
      summary, parameters, request example (only for a body-carrying
      method), response example, error responses; none when disabled. */
  function Prompts(g: Generator, entry: DocEntry): seq<Call> {
    if !g.enabled then []
    else
      [PromptCall(DescriptionPrompt, entry, 300), PromptCall(SummaryPrompt, entry, 100), PromptCall(ParametersPrompt, entry, 500)]
      + (if HasBody(FirstMethod(entry.httpMethods)) then [PromptCall(RequestExamplePrompt, entry, 200)] else [])
      + [PromptCall(ResponseExamplePrompt, entry, 300), PromptCall(ErrorResponsesPrompt, entry, 200)]
  }

  /** The request-example prompt is issued exactly when the generator is
      enabled and the first method carries a body; otherwise five prompts. */
  lemma PromptsShape(g: Generator, entry: DocEntry)
    ensures PromptCall(RequestExamplePrompt, entry, 200) in Prompts(g, entry) <==>
      g.enabled && HasBody(FirstMethod(entry.httpMethods))
    ensures |Prompts(g, entry)| == if !g.enabled then 0 else if HasBody(FirstMethod(entry.httpMethods)) then 6 else 5
  {
  }

  /** The AI answers gathered on a cache miss. */
  datatype Answers = Answers(
    description: Asked,
    summary: Asked,
    parameters: Asked,
    request: (Json, seq<Call>),
    response: Asked,
    errors: Asked)

  function AskAll(g: Generator, client: Client, codec: Codec, entry: DocEntry): (r: Answers)
    ensures r.description.calls + r.summary.calls + r.parameters.calls + r.request.1 + r.response.calls + r.errors.calls
      == Prompts(g, entry)
  {
    Answers(
      MakeAiRequest(g, client, DescriptionPrompt, entry, 300),
      MakeAiRequest(g, client, SummaryPrompt, entry, 100),
      MakeAiRequest(g, client, ParametersPrompt, entry, 500),
      RequestExample(g, client, codec, entry),
      MakeAiRequest(g, client, ResponseExamplePrompt, entry, 300),
      MakeAiRequest(g, client, ErrorResponsesPrompt, entry, 200))
  }

  /** The bundle built on a cache miss and the client calls made for it. */
  function FreshBundle(g: Generator, client: Client, codec: Codec, entry: DocEntry): (r: (Bundle, seq<Call>))
    ensures r.1 == Prompts(g, entry)
    ensures r.0.tags == Tags(entry.uri)
    ensures |r.0.parameters| >= |Names(entry.uri)|
    ensures r.0.parameters[..|Names(entry.uri)|] == PathParameters(entry.uri)
    ensures !HasBody(FirstMethod(entry.httpMethods)) ==> r.0.requestExample == JList([])
    ensures !g.enabled ==> r.0.description == "" && r.0.summary == ""
    ensures r.0.description == MakeAiRequest(g, client, DescriptionPrompt, entry, 300).text
    ensures r.0.summary == MakeAiRequest(g, client, SummaryPrompt, entry, 100).text
    ensures r.0.parameters == ParseParameters(codec, MakeAiRequest(g, client, ParametersPrompt, entry, 500).text, entry.uri)
    ensures r.0.requestExample == RequestExample(g, client, codec, entry).0
    ensures r.0.responseExample == ParseJsonResponse(codec, MakeAiRequest(g, client, ResponseExamplePrompt, entry, 300).text)
    ensures r.0.errorResponses == ParseErrorResponses(codec, MakeAiRequest(g, client, ErrorResponsesPrompt, entry, 200).text)
  {
    var a := AskAll(g, client, codec, entry);
    var bundle := Bundle(
      a.description.text,
      a.summary.text,
      ParseParameters(codec, a.parameters.text, entry.uri),
      a.request.0,
      ParseJsonResponse(codec, a.response.text),
      ParseErrorResponses(codec, a.errors.text),
      Tags(entry.uri));
    (bundle, a.description.calls + a.summary.calls + a.parameters.calls + a.request.1 + a.response.calls + a.errors.calls)
  }

  /** `generateComprehensiveDocs`: a hit returns the cached bundle with no
      client call and no write; a miss builds a fresh bundle and writes it
      back only when the cache is enabled. */
  function GenerateComprehensiveDocs(g: Generator, cache: Cache, client: Client, codec: Codec, entry: DocEntry): (r: Outcome)
    ensures cache.enabled && Get(cache, CacheKey(entry)).Some? ==>
      r == (match codec.decodeBundle(Get(cache, CacheKey(entry)).value)
            case Some(b) => Produced(b, cache, [])
            case None => Failed(CachedBundleNotArray))
    ensures !(cache.enabled && Get(cache, CacheKey(entry)).Some?) ==>
      r.Produced? && (r.bundle, r.calls) == FreshBundle(g, client, codec, entry)
    ensures !(cache.enabled && Get(cache, CacheKey(entry)).Some?) && cache.enabled ==>
      r.cache == Put(cache, CacheKey(entry), codec.encodeBundle(r.bundle))
    ensures !cache.enabled ==> r.Produced? && r.cache == cache
  {
    var key := CacheKey(entry);
    var cached := if CacheManager.IsEnabled(cache) then Get(cache, key) else None;
    if cached.Some? then
      (match codec.decodeBundle(cached.value)
       case Some(b) => Produced(b, cache, [])
       case None => Failed(CachedBundleNotArray))
    else
      var built := FreshBundle(g, client, codec, entry);
      var cache' := if CacheManager.IsEnabled(cache) then Put(cache, key, codec.encodeBundle(built.0)) else cache;
      Produced(built.0, cache', built.1)
  }

  /** With a codec whose decoding undoes its encoding, a bundle generated on
      a miss is served from the cache on the next call, with no client call. */
  lemma GenerateTwiceHitsCache(g: Generator, cache: Cache, client: Client, client2: Client, codec: Codec, entry: DocEntry)
    requires cache.enabled && Get(cache, CacheKey(entry)).None?
    requires var b := FreshBundle(g, client, codec, entry).0; codec.decodeBundle(codec.encodeBundle(b)) == Some(b)
    ensures var first := GenerateComprehensiveDocs(g, cache, client, codec, entry);
      GenerateComprehensiveDocs(g, first.cache, client2, codec, entry) == Produced(first.bundle, first.cache, [])
  {
    var first := GenerateComprehensiveDocs(g, cache, client, codec, entry);
    PutThenGet(cache, CacheKey(entry), codec.encodeBundle(first.bundle));
  }

  /** A disabled generator never calls the client and yields only the local
      derivations: path parameters, the fallback errors and the tags. */
  lemma DisabledGeneratorIsLocal(client: Client, codec: Codec, entry: DocEntry)
    requires DecodesEmptyToNull(codec)
    ensures var r := FreshBundle(Generator(false), client, codec, entry);
      r.1 == [] &&
      r.0 == Bundle("", "", PathParameters(entry.uri), JList([]), JList([]), JList(FallbackErrors), Tags(entry.uri))
  {
  }
}

=== FILE: ai_client.dfy ===
/** The AI provider interface `describeEndpoint(controller, method, context)`.
    The provider is an arbitrary function supplied by the caller; the
    generators record each call they make so that "the client is not
    called" can be stated. */
module AiClient {
  import opened Records

  /** What a call yields: a string, or an exception thrown from inside the provider. */
  datatype Reply = Answer(text: string) | Threw

  /** The six prompt templates of the advanced generator. Their fixed text
      is not modelled; a prompt is identified by its template and the entry
      it is filled from. */
  datatype PromptKind =
    | DescriptionPrompt
    | SummaryPrompt
    | ParametersPrompt
    | RequestExamplePrompt
    | ResponseExamplePrompt
    | ErrorResponsesPrompt

  /** The `context` argument: the route record itself (basic generator) or
      `['prompt' => ..., 'max_tokens' => ...]` (advanced generator). */
  datatype Context =
    | RouteContext(route: RouteRecord)
    | PromptContext(kind: PromptKind, subject: DocEntry, maxTokens: nat)

  datatype Call = Call(controller: string, action: string, context: Context)

  type Client = (string, string, Context) -> Reply

  /** Performs one recorded call. */
  function Ask(client: Client, call: Call): Reply {
    client(call.controller, call.action, call.context)
  }
}

=== FILE: ai_doc_generator.dfy ===
/** `AiDocGenerator`: a one-string description from the AI client, cached
    under `"<http_methods>:<uri>"`. */
module AiDocGenerator {
  import opened Optional
  import opened Records
  import opened CacheManager
  import opened AiClient

  /** The generator's constructor flag. */
  datatype Generator = Generator(enabled: bool)

  /** `isEnabled`. The flag is only read by the caller; `generate` ignores it. */
  function IsEnabled(g: Generator): (r: bool)
    ensures r <==> g.enabled
  {
    g.enabled
  }

  function CacheKey(route: RouteRecord): string {
    route.httpMethods + ":" + route.uri
  }

  /** What `generate` ends with: a description, or the client's exception
      escaping (the method has no `try`). Both carry the cache as left and
      the client calls made. */
  datatype Generated =
    | Described(text: string, cache: Cache, calls: seq<Call>)
    | Raised(cache: Cache, calls: seq<Call>)

  /** The one call `generate` makes on a miss: null controller and method
      are passed as empty strings, the whole route record as context. */
  function ClientCall(route: RouteRecord): Call {
    Call(route.controller.GetOr(""), route.action.GetOr(""), RouteContext(route))
  }

  /** `generate`: a cache hit is returned without calling the client and
      without touching the store; on a miss the client's answer is returned
      as it is and stored only if the cache is enabled and the answer is
      non-empty. */
  function Generate(cache: Cache, client: Client, route: RouteRecord): (r: Generated)
    ensures cache.enabled && Get(cache, CacheKey(route)).Some? ==>
      r == Described(Get(cache, CacheKey(route)).value, cache, [])
    ensures !(cache.enabled && Get(cache, CacheKey(route)).Some?) ==>
      r.calls == [ClientCall(route)] &&
      (r.Raised? <==> Ask(client, ClientCall(route)).Threw?)
    ensures !(cache.enabled && Get(cache, CacheKey(route)).Some?) && r.Described? ==>
      r.text == Ask(client, ClientCall(route)).text
    ensures r.Raised? ==> r.cache == cache
    ensures r.Described? && r.text == "" ==> r.cache == cache
    ensures cache.enabled && Get(cache, CacheKey(route)).None? && r.Described? && r.text != "" ==>
      r.cache == Put(cache, CacheKey(route), r.text)
    ensures !cache.enabled ==> r.cache == cache
    ensures r.cache.enabled == cache.enabled
  {
    var key := CacheKey(route);
    var cached := if CacheManager.IsEnabled(cache) then Get(cache, key) else None;
    if cached.Some? then Described(cached.value, cache, [])
    else
      var call := ClientCall(route);
      match Ask(client, call)
      case Threw => Raised(cache, [call])
      case Answer(text) =>
        var cache' := if CacheManager.IsEnabled(cache) && text != "" then Put(cache, key, text) else cache;
        Described(text, cache', [call])
  }

  /** A non-empty answer is remembered: asking again for the same route
      returns it without calling the client, whatever the client would say. */
  lemma GenerateTwiceHitsCache(cache: Cache, client: Client, client2: Client, route: RouteRecord)
    requires cache.enabled
    requires Generate(cache, client, route).Described?
    requires Generate(cache, client, route).text != ""
    ensures var first := Generate(cache, client, route);
      Generate(first.cache, client2, route) == Described(first.text, first.cache, [])
  {
    var key := CacheKey(route);
    var first := Generate(cache, client, route);
    if Get(cache, key).None? {
      PutThenGet(cache, key, first.text);
    }
  }

  /** An empty answer is never cached: the next run asks the client again. */
  lemma EmptyAnswerNotCached(cache: Cache, client: Client, client2: Client, route: RouteRecord)
    requires Get(cache, CacheKey(route)).None?
    requires Ask(client, ClientCall(route)) == Answer("")
    ensures Generate(cache, client, route) == Described("", cache, [ClientCall(route)])
    ensures Generate(cache, client2, route).calls == [ClientCall(route)]
  {
  }
}

=== FILE: cache_manager.dfy ===
/** The file-backed description cache. The cache file is one PHP file that
    returns an array; it is read with `include` and rewritten whole with
    `var_export`. Here the file is an abstract store that is absent, holds
    something other than an array, or holds a string-to-string map. */
module CacheManager {
  import opened Optional

  datatype Store = Absent | Corrupt | Entries(entries: map<string, string>)

  /** A cache manager: the constructor's `enabled` flag and the store it owns. */
  datatype Cache = Cache(enabled: bool, store: Store)

  /** What `put` starts from: the stored map, or an empty one when the file
      is missing or does not hold an array. */
  function Contents(s: Store): (m: map<string, string>)
    ensures s.Entries? ==> m == s.entries
    ensures !s.Entries? ==> m == map[]
  {
    if s.Entries? then s.entries else map[]
  }

  /** `isEnabled`: the flag given at construction. */
  function IsEnabled(c: Cache): (r: bool)
    ensures r <==> c.enabled
  {
    c.enabled
  }

  /** `get`: a value only from an enabled cache whose file holds the key. */
  function Get(c: Cache, key: string): (r: Option<string>)
    ensures !c.enabled ==> r == None
    ensures !c.store.Entries? ==> r == None
    ensures r.Some? <==> c.enabled && c.store.Entries? && key in c.store.entries
    ensures r.Some? ==> r.value == c.store.entries[key]
  {
    if !c.enabled then None
    else match c.store
      case Absent => None
      case Corrupt => None
      case Entries(m) => if key in m then Some(m[key]) else None
  }

  /** `put`: a no-op when disabled; otherwise the file is rewritten with the
      previous contents (empty if missing or corrupt) plus `key => value`. */
  function Put(c: Cache, key: string, value: string): (r: Cache)
    ensures r.enabled == c.enabled
    ensures !c.enabled ==> r == c
    ensures c.enabled ==> r.store == Entries(Contents(c.store)[key := value])
  {
    if !c.enabled then c
    else Cache(c.enabled, Entries(Contents(c.store)[key := value]))
  }

  /** An enabled cache returns what was just put. */
  lemma PutThenGet(c: Cache, key: string, value: string)
    requires c.enabled
    ensures Get(Put(c, key, value), key) == Some(value)
  {
  }

  /** `put` changes no other key as seen through `get`. */
  lemma PutKeepsOtherKeys(c: Cache, key: string, value: string, other: string)
    requires other != key
    ensures Get(Put(c, key, value), other) == Get(c, other)
  {
  }

  /** After a `put` on an enabled cache the store is a well-formed map even if
      it was missing or corrupt, and it holds exactly the old keys plus `key`. */
  lemma PutRepairsStore(c: Cache, key: string, value: string)
    requires c.enabled
    ensures Put(c, key, value).store.Entries?
    ensures Put(c, key, value).store.entries.Keys == Contents(c.store).Keys + {key}
  {
  }
}

=== FILE: docblock_parser.dfy ===
/** `DocBlockParser`: the summary line of a handler method's doc comment.
    Reflection is a lookup in the `Codebase`; an unknown class or method is
    the `ReflectionException` the parser swallows. */
module DocBlockParser {
  import opened Optional
  import opened Text
  import opened Records

  /** The characters each comment line is trimmed of: `/`, `*`, tab, space. */
  const CommentChars: set<char> := {'/', '*', '\t', ' '}

  /** Drops one trailing carriage return. */
  function ChopCr(line: string): (r: string)
    ensures line != [] && line[|line| - 1] == '\r' ==> r == line[..|line| - 1]
    ensures (line == [] || line[|line| - 1] != '\r') ==> r == line
  {
    if line != [] && line[|line| - 1] == '\r' then line[..|line| - 1] else line
  }

  /** `preg_split('/\r?\n/', $comment)`: the pieces between line feeds, each
      but the last losing the carriage return that was part of a `\r\n`. */
  function SplitLines(comment: string): (r: seq<string>)
    ensures |r| >= 1
    ensures forall i :: 0 <= i < |r| ==> '\n' !in r[i]
  {
    var pieces := Split(comment, '\n');
    seq(|pieces|, i requires 0 <= i < |pieces| =>
      if i < |pieces| - 1 then ChopCr(pieces[i]) else pieces[i])
  }

  /** `trim($line, ...)` with the comment characters. */
  function CleanLine(line: string): (r: string)
    ensures r != [] ==> r[0] !in CommentChars && r[|r| - 1] !in CommentChars
  {
    Trim(line, CommentChars)
  }

  /** A cleaned line the parser keeps: non-empty and not an `@` annotation. */
  predicate IsProse(line: string) {
    line != "" && line[0] != '@'
  }

  /** A line fit to be a summary: prose that starts and ends with a
      character outside the comment characters. */
  predicate IsSummary(line: string) {
    IsProse(line) && line[0] !in CommentChars && line[|line| - 1] !in CommentChars
  }

  /** `$cleaned[0] ?? null`: the first cleaned line that is prose. */
  function FirstProse(lines: seq<string>): (r: Option<string>)
    ensures r.Some? ==> IsSummary(r.value)
    decreases |lines|
  {
    if |lines| == 0 then None
    else if IsProse(CleanLine(lines[0])) then Some(CleanLine(lines[0]))
    else FirstProse(lines[1..])
  }

  /** No line before position `n` cleans to prose. */
  predicate NoProseBefore(lines: seq<string>, n: nat)
    requires n <= |lines|
  {
    forall j :: 0 <= j < n ==> !IsProse(CleanLine(lines[j]))
  }

  /** `r` is the cleaned form of the first line whose cleaned form is
      prose, and is none exactly when no line is prose. */
  predicate IsFirstProse(lines: seq<string>, r: Option<string>) {
    (r.None? <==> NoProseBefore(lines, |lines|)) &&
    (r.Some? ==> exists i :: 0 <= i < |lines| && r.value == CleanLine(lines[i]) && NoProseBefore(lines, i))
  }

  /** Behind a first line that is not prose, the lines before `n + 1` hold
      no prose exactly when the tail's lines before `n` hold none. */
  lemma NoProseShift(lines: seq<string>, n: nat)
    requires 0 < |lines| && n < |lines|
    requires !IsProse(CleanLine(lines[0]))
    ensures NoProseBefore(lines, n + 1) <==> NoProseBefore(lines[1..], n)
  {
    if NoProseBefore(lines[1..], n) {
      forall j | 0 < j < n + 1 ensures !IsProse(CleanLine(lines[j])) {
        assert lines[j] == lines[1..][j - 1];
      }
    }
  }

  /** The line kept is the cleaned form of the first line whose cleaned form
      is prose, and there is none exactly when no line is prose. */
  lemma {:induction false} FirstProseIsFirst(lines: seq<string>)
    ensures IsFirstProse(lines, FirstProse(lines))
    decreases |lines|
  {
    if |lines| > 0 {
      if IsProse(CleanLine(lines[0])) {
        assert !NoProseBefore(lines, |lines|);
        assert NoProseBefore(lines, 0);
      } else {
        var tail := lines[1..];
        FirstProseIsFirst(tail);
        NoProseShift(lines, |tail|);
        if FirstProse(tail).Some? {
          var i :| 0 <= i < |tail| && FirstProse(tail).value == CleanLine(tail[i]) && NoProseBefore(tail, i);
          NoProseShift(lines, i);
          assert tail[i] == lines[i + 1];
        }
      }
    }
  }

  /** The summary a doc comment yields: a non-empty prose line trimmed of
      comment characters. */
  function SummaryOf(comment: string): (r: Option<string>)
    ensures r.Some? ==> IsSummary(r.value)
  {
    var lines := SplitLines(comment);
    FirstProse(lines)
  }

  /** The summary is the cleaned form of the comment's first line whose
      cleaned form is prose, and there is none exactly when no line is
      prose. */
  lemma SummaryOfIsFirst(comment: string)
    ensures IsFirstProse(SplitLines(comment), SummaryOf(comment))
  {
    FirstProseIsFirst(SplitLines(comment));
  }

  /** What `resolveMethod` finds: nothing (it throws), or a method whose doc
      comment may be absent. */
  datatype Resolution = Unresolved | Resolved(docComment: Option<string>)

  /** `resolveMethod`: the named method, or `__invoke` when the name is empty
      or not on the class. */
  function ResolveMethod(codebase: Codebase, controller: string, action: string): (r: Resolution)
    ensures controller !in codebase ==> r == Unresolved
    ensures controller in codebase && action != "" && action in codebase[controller] ==>
      r == Resolved(codebase[controller][action])
    ensures controller in codebase && (action == "" || action !in codebase[controller]) ==>
      r == (if "__invoke" in codebase[controller]
            then Resolved(codebase[controller]["__invoke"]) else Unresolved)
  {
    if controller !in codebase then Unresolved
    else
      var methods := codebase[controller];
      if action == "" || action !in methods then
        if "__invoke" in methods then Resolved(methods["__invoke"]) else Unresolved
      else Resolved(methods[action])
  }

  /** `extractSummary`: null for an unresolvable handler, a missing comment,
      or a comment without a prose line. */
  function ExtractSummary(codebase: Codebase, controller: string, action: string): (r: Option<string>)
    ensures ResolveMethod(codebase, controller, action).Unresolved? ==> r == None
    ensures ResolveMethod(codebase, controller, action) == Resolved(None) ==> r == None
    ensures var m := ResolveMethod(codebase, controller, action);
      m.Resolved? && m.docComment.Some? ==> r == SummaryOf(m.docComment.value)
    ensures r.Some? ==> IsSummary(r.value)
  {
    match ResolveMethod(codebase, controller, action)
    case Unresolved => None
    case Resolved(None) => None
    case Resolved(Some(comment)) => SummaryOf(comment)
  }

  /** Lines without line feeds and without a trailing carriage return come
      back unchanged from splitting their newline-join. */
  lemma SplitLinesOfJoin(lines: seq<string>)
    requires |lines| >= 1
    requires forall i :: 0 <= i < |lines| ==> '\n' !in lines[i]
    requires forall i :: 0 <= i < |lines| ==> lines[i] == [] || lines[i][|lines[i]| - 1] != '\r'
    ensures SplitLines(Join(lines, "\n")) == lines
  {
    SplitJoin(lines, '\n');
    var r := SplitLines(Join(lines, "\n"));
    forall i | 0 <= i < |lines| ensures r[i] == lines[i] {
      assert ChopCr(lines[i]) == lines[i];
    }
  }

  /** The pieces a `\r\n`-join leaves between line feeds: every line but the
      last keeps the carriage return of its line end. */
  function WithCr(lines: seq<string>): (r: seq<string>)
    requires |lines| >= 1
    ensures |r| == |lines|
    ensures forall i :: 0 <= i < |lines| - 1 ==> r[i] == lines[i] + "\r"
    ensures r[|lines| - 1] == lines[|lines| - 1]
  {
    seq(|lines|, i requires 0 <= i < |lines| => if i < |lines| - 1 then lines[i] + "\r" else lines[i])
  }

  /** Joining with `\r\n` is joining the carriage-return pieces with `\n`. */
  lemma {:induction false} JoinCrlf(lines: seq<string>)
    requires |lines| >= 1
    ensures Join(lines, "\r\n") == Join(WithCr(lines), "\n")
    decreases |lines|
  {
    if |lines| > 1 {
      var tail := lines[1..];
      JoinCrlf(tail);
      var w := WithCr(lines);
      assert w[1..] == WithCr(tail);
      assert Join(w, "\n") == lines[0] + "\r" + "\n" + Join(WithCr(tail), "\n");
      assert Join(lines, "\r\n") == lines[0] + "\r\n" + Join(tail, "\r\n");
    }
  }

  /** The carriage return a `\r\n` line end leaves is chopped. */
  lemma ChopCrOf(line: string)
    ensures ChopCr(line + "\r") == line
  {
    assert (line + "\r")[..|line|] == line;
  }

  /** Lines without line feeds come back unchanged from splitting their
      `\r\n`-join: the carriage return before each line feed is dropped. */
  lemma SplitLinesOfCrlfJoin(lines: seq<string>)
    requires |lines| >= 1
    requires forall i :: 0 <= i < |lines| ==> '\n' !in lines[i]
    ensures SplitLines(Join(lines, "\r\n")) == lines
  {
    JoinCrlf(lines);
    var w := WithCr(lines);
    forall i | 0 <= i < |w| ensures '\n' !in w[i] {
      if i < |lines| - 1 {
        assert w[i] == lines[i] + "\r";
      }
    }
    SplitJoin(w, '\n');
    var pieces := Split(Join(lines, "\r\n"), '\n');
    assert pieces == w;
    var r := SplitLines(Join(lines, "\r\n"));
    forall i | 0 <= i < |lines| ensures r[i] == lines[i] {
      if i < |lines| - 1 {
        ChopCrOf(lines[i]);
        assert r[i] == ChopCr(w[i]);
      }
    }
  }

  /** A comment line holding only delimiters cleans to nothing. */
  lemma CleanOpeningLine()
    ensures CleanLine("/**") == ""
  {
    assert TrimLeft("/**", CommentChars) == "";
  }

  /** A ` * text` comment line cleans to `text`. */
  lemma CleanStarLine(text: string)
    requires text != [] && text[0] !in CommentChars && text[|text| - 1] !in CommentChars
    ensures CleanLine(" * " + text) == text
  {
    var l := " * " + text;
    assert l[1..] == "* " + text;
    assert l[2..] == " " + text;
    assert l[3..] == text;
    assert TrimLeft(l, CommentChars) == text;
  }

  /** The parser on a typical doc comment, given as its lines: the opening
      line is skipped and the first prose line is the summary; the blank
      comment line and the annotation after it do not matter. */
  lemma SummaryOfTypicalComment(prose: string)
    requires IsProse(prose) && prose[|prose| - 1] !in CommentChars && prose[0] !in CommentChars
    requires '\n' !in prose && prose[|prose| - 1] != '\r'
    ensures SummaryOf(Join(["/**", " * " + prose, " *", " * @return void", " */"], "\n")) == Some(prose)
  {
    var lines := ["/**", " * " + prose, " *", " * @return void", " */"];
    assert forall i :: 0 <= i < |lines| ==> '\n' !in lines[i];
    SplitLinesOfJoin(lines);
    CleanOpeningLine();
    CleanStarLine(prose);
    assert !IsProse(CleanLine(lines[0]));
    assert FirstProse(lines) == FirstProse(lines[1..]);
    assert IsProse(CleanLine(lines[1..][0]));
  }

  /** The same comment with Windows line ends: the carriage returns are
      dropped with the line feeds, so the summary is the same prose line. */
  lemma SummaryOfTypicalCrlfComment(prose: string)
    requires IsProse(prose) && prose[|prose| - 1] !in CommentChars && prose[0] !in CommentChars
    requires '\n' !in prose
    ensures SummaryOf(Join(["/**", " * " + prose, " *", " * @return void", " */"], "\r\n")) == Some(prose)
  {
    var lines := ["/**", " * " + prose, " *", " * @return void", " */"];
    assert forall i :: 0 <= i < |lines| ==> '\n' !in lines[i];
    SplitLinesOfCrlfJoin(lines);
    CleanOpeningLine();
    CleanStarLine(prose);
    assert !IsProse(CleanLine(lines[0]));
    assert FirstProse(lines) == FirstProse(lines[1..]);
    assert IsProse(CleanLine(lines[1..][0]));
  }
}

=== FILE: generate_docs_command.dfy ===
/** `GenerateDocsCommand` (`php artisan api:docs`): collects the API routes,
    describes each one (doc comment first, basic AI generator as the
    fallback), optionally enriches the list with the advanced generator,
    and hands it to the formatters the `--format` option selects. The
    files a run writes are returned as a list of writes. */
module GenerateDocsCommand {
  import opened Optional
  import opened Text
  import opened JsonTree
  import opened Records
  import opened CacheManager
  import opened AiClient
  import opened Inflector
  import DocBlockParser
  import Basic = AiDocGenerator
  import Advanced = AdvancedAiGenerator
  import RouteCollector
  import MarkdownFormatter
  import OpenApiFormatter
  import PostmanFormatter

  /** The description of an entry nothing could describe. */
  const NoDescription := "No description available."

  /** A stage that may call the AI client: its value, the cache as left and
      the calls made, or the fault that ended the command. */
  datatype Run<T> =
    | Done(value: T, cache: Cache, calls: seq<Call>)
    | Crashed(fault: Fault, calls: seq<Call>)

  /** The entry built from a route and its description: null controller
      and method become `Closure` and `invoke`, and a missing or blank
      description becomes the placeholder sentence. */
  function Entry(route: RouteRecord, doc: Option<string>): (e: DocEntry)
    ensures e.httpMethods == route.httpMethods && e.uri == route.uri && e.name == route.name
    ensures e.controller == route.controller.GetOr("Closure") && e.action == route.action.GetOr("invoke")
    ensures e.advanced.None? && !IsBlank(e.description)
    ensures doc.Some? && !IsBlank(doc.value) ==> e.description == doc.value
    ensures doc.None? || IsBlank(doc.value) ==> e.description == NoDescription
  {
    assert NoDescription[0] == 'N';
    var kept := if doc.Some? && IsBlank(doc.value) then None else doc;
    DocEntry(route.httpMethods, route.uri, route.controller.GetOr("Closure"), route.action.GetOr("invoke"),
             route.name, kept.GetOr(NoDescription), None)
  }

  /** The doc comment summary, looked up only when both the controller and
      the method are known. */
  function Parsed(codebase: Codebase, route: RouteRecord): Option<string> {
    if route.controller.Some? && route.action.Some?
    then DocBlockParser.ExtractSummary(codebase, route.controller.value, route.action.value)
    else None
  }

  /** The basic generator is asked only for a route with a controller and a
      method whose doc comment gave nothing but blanks, and only when it is
      enabled. */
  predicate AsksAi(codebase: Codebase, gen: Basic.Generator, route: RouteRecord) {
    route.controller.Some? && route.action.Some? &&
    (Parsed(codebase, route).None? || IsBlank(Parsed(codebase, route).value)) &&
    Basic.IsEnabled(gen)
  }

  /** Entry and route agree on everything the route carries, the entry has
      a non-blank description, and a route the AI is not asked about gets
      its doc comment summary or the placeholder. */
  predicate Describes(codebase: Codebase, gen: Basic.Generator, e: DocEntry, route: RouteRecord) {
    e.httpMethods == route.httpMethods && e.uri == route.uri && e.name == route.name &&
    e.controller == route.controller.GetOr("Closure") && e.action == route.action.GetOr("invoke") &&
    e.advanced.None? && !IsBlank(e.description) &&
    (!AsksAi(codebase, gen, route) ==> e == Entry(route, Parsed(codebase, route)))
  }

  /** One iteration of the loop in `handle`. */
  function Describe(codebase: Codebase, gen: Basic.Generator, cache: Cache, client: Client, route: RouteRecord): (r: Run<DocEntry>)
    ensures AsksAi(codebase, gen, route) && r.Done? ==>
      var g := Basic.Generate(cache, client, route); g.Described? && r == Done(Entry(route, Some(g.text)), g.cache, g.calls)
    ensures !AsksAi(codebase, gen, route) ==> r == Done(Entry(route, Parsed(codebase, route)), cache, [])
    ensures r.calls != [] ==> gen.enabled && route.controller.Some? && route.action.Some?
    ensures r.Crashed? ==> r.fault == ClientThrew && AsksAi(codebase, gen, route)
    ensures r.Done? ==> Describes(codebase, gen, r.value, route)
  {
    if AsksAi(codebase, gen, route) then
      match Basic.Generate(cache, client, route)
      case Raised(_, calls) => Crashed(ClientThrew, calls)
      case Described(text, cache', calls) => Done(Entry(route, Some(text)), cache', calls)
    else Done(Entry(route, Parsed(codebase, route)), cache, [])
  }

  /** One iteration on the list built so far; an exception ends the loop,
      so a crashed run stays as it is. */
  function Extend(codebase: Codebase, gen: Basic.Generator, client: Client, run: Run<seq<DocEntry>>, route: RouteRecord): Run<seq<DocEntry>> {
    match run
    case Crashed(_, _) => run
    case Done(entries, cache, calls) =>
      match Describe(codebase, gen, cache, client, route)
      case Crashed(f, more) => Crashed(f, calls + more)
      case Done(e, cache', more) => Done(entries + [e], cache', calls + more)
  }

  /** The loop in `handle` over the collected routes, threading the cache;
      the first exception ends it. */
  function Documentation(codebase: Codebase, gen: Basic.Generator, cache: Cache, client: Client, routes: seq<RouteRecord>): (r: Run<seq<DocEntry>>)
    ensures r.Done? ==> |r.value| == |routes|
    ensures !gen.enabled ==> r.Done? && r.cache == cache && r.calls == []
    decreases |routes|
  {
    if |routes| == 0 then Done([], cache, [])
    else Extend(codebase, gen, client, Documentation(codebase, gen, cache, client, routes[..|routes| - 1]), routes[|routes| - 1])
  }

  /** Each entry describes its own route, in route order. */
  lemma {:induction false} DocumentationDescribes(codebase: Codebase, gen: Basic.Generator, cache: Cache, client: Client, routes: seq<RouteRecord>)
    ensures var r := Documentation(codebase, gen, cache, client, routes);
      r.Done? ==> forall i :: 0 <= i < |routes| ==> Describes(codebase, gen, r.value[i], routes[i])
    decreases |routes|
  {
    if |routes| > 0 {
      var prefix, route := routes[..|routes| - 1], routes[|routes| - 1];
      DocumentationDescribes(codebase, gen, cache, client, prefix);
      var d := Documentation(codebase, gen, cache, client, prefix);
      var r := Documentation(codebase, gen, cache, client, routes);
      if d.Done? && r.Done? {
        var step := Describe(codebase, gen, d.cache, client, route);
        assert r.value == d.value + [step.value];
        forall i | 0 <= i < |routes| ensures Describes(codebase, gen, r.value[i], routes[i]) {
          if i < |prefix| {
            assert r.value[i] == d.value[i] && routes[i] == prefix[i];
          }
        }
      }
    }
  }

  /** The loop as `handle` runs it. */
  method DescribeAll(codebase: Codebase, gen: Basic.Generator, cache: Cache, client: Client, routes: seq<RouteRecord>)
    returns (r: Run<seq<DocEntry>>)
    ensures r == Documentation(codebase, gen, cache, client, routes)
  {
    r := Done([], cache, []);
    var i := 0;
    while i < |routes| && r.Done?
      invariant 0 <= i <= |routes|
      invariant r == Documentation(codebase, gen, cache, client, routes[..i])
      decreases |routes| - i
    {
      DocumentationSnoc(codebase, gen, cache, client, routes, i);
      r := Extend(codebase, gen, client, r, routes[i]);
      i := i + 1;
    }
    if r.Crashed? {
      CrashSticks(codebase, gen, cache, client, routes, i);
    }
    assert routes[..|routes|] == routes;
  }

  /** The list for one more route extends the list for the routes before it. */
  lemma DocumentationSnoc(codebase: Codebase, gen: Basic.Generator, cache: Cache, client: Client, routes: seq<RouteRecord>, i: nat)
    requires i < |routes|
    ensures Documentation(codebase, gen, cache, client, routes[..i + 1]) ==
      Extend(codebase, gen, client, Documentation(codebase, gen, cache, client, routes[..i]), routes[i])
  {
    assert routes[..i + 1][..i] == routes[..i];
  }

  /** Once the loop has crashed, later routes change nothing. */
  lemma {:induction false} CrashSticks(codebase: Codebase, gen: Basic.Generator, cache: Cache, client: Client, routes: seq<RouteRecord>, i: nat)
    requires i <= |routes|
    requires Documentation(codebase, gen, cache, client, routes[..i]).Crashed?
    ensures forall k :: i <= k <= |routes| ==>
      Documentation(codebase, gen, cache, client, routes[..k]) == Documentation(codebase, gen, cache, client, routes[..i])
    decreases |routes| - i
  {
    if i < |routes| {
      DocumentationSnoc(codebase, gen, cache, client, routes, i);
      CrashSticks(codebase, gen, cache, client, routes, i + 1);
    }
  }

  /** `array_merge($route, $aiDocs)`: the bundle's description replaces the
      entry's; its other keys are added. */
  function Merge(e: DocEntry, b: Bundle): DocEntry {
    e.(description := b.description, advanced := Some(b))
  }

  /** `enhanceWithAdvancedAi` as written: its first iteration calls
      `isEnabled()`, which the advanced generator does not define, so a
      non-empty list ends in an `Error`. */
  function EnhanceAsWritten(docs: seq<DocEntry>, cache: Cache): (r: Run<seq<DocEntry>>)
    ensures |docs| == 0 <==> r == Done(docs, cache, [])
    ensures |docs| > 0 ==> r == Crashed(UndefinedMethod, [])
  {
    if |docs| == 0 then Done([], cache, []) else Crashed(UndefinedMethod, [])
  }

  /** Every run with `--advanced` reaches the enhancement with at least one
      entry, because `handle` returns early on an empty route list: the
      option always ends the command with an error. */
  lemma AdvancedRunAlwaysCrashes(codebase: Codebase, gen: Basic.Generator, cache: Cache, client: Client, routes: seq<RouteRecord>)
    requires routes != []
    requires Documentation(codebase, gen, cache, client, routes).Done?
    ensures var d := Documentation(codebase, gen, cache, client, routes);
      EnhanceAsWritten(d.value, d.cache) == Crashed(UndefinedMethod, [])
  {
  }

  /** An entry after the advanced stage: merged with a bundle (and so
      described by it) when the generator is enabled, unchanged otherwise. */
  predicate Enhanced(g: Advanced.Generator, before: DocEntry, after: DocEntry) {
    if g.enabled then after.advanced.Some? && after == Merge(before, after.advanced.value)
    else after == before
  }

  /** One iteration of `enhanceWithAdvancedAi`, with the generator's own
      flag in place of the undefined call. */
  function EnhanceOne(g: Advanced.Generator, cache: Cache, client: Client, codec: Advanced.Codec, e: DocEntry): (r: Run<DocEntry>)
    ensures r.Done? ==> Enhanced(g, e, r.value)
    ensures !g.enabled ==> r == Done(e, cache, [])
    ensures r.Crashed? ==> g.enabled && r.fault == CachedBundleNotArray
  {
    if !g.enabled then Done(e, cache, [])
    else
      match Advanced.GenerateComprehensiveDocs(g, cache, client, codec, e)
      case Failed(f) => Crashed(f, [])
      case Produced(b, cache', calls) => Done(Merge(e, b), cache', calls)
  }

  /** `enhanceWithAdvancedAi` corrected: each entry is merged with its
      bundle when the generator is enabled and kept as it is otherwise, in
      order, threading the cache. */
  function Enhance(g: Advanced.Generator, cache: Cache, client: Client, codec: Advanced.Codec, docs: seq<DocEntry>): (r: Run<seq<DocEntry>>)
    ensures r.Done? ==> |r.value| == |docs|
    ensures r.Done? ==> forall i :: 0 <= i < |docs| ==> Enhanced(g, docs[i], r.value[i])
    ensures r.Crashed? ==> g.enabled && r.fault == CachedBundleNotArray
    decreases |docs|
  {
    if |docs| == 0 then Done([], cache, [])
    else
      match Enhance(g, cache, client, codec, docs[..|docs| - 1])
      case Crashed(f, calls) => Crashed(f, calls)
      case Done(entries, cache', calls) =>
        match EnhanceOne(g, cache', client, codec, docs[|docs| - 1])
        case Crashed(f, more) => Crashed(f, calls + more)
        case Done(x, cache'', more) => Done(entries + [x], cache'', calls + more)
  }

  /** A disabled generator leaves the list, the cache and the client alone. */
  lemma {:induction false} EnhanceDisabled(cache: Cache, client: Client, codec: Advanced.Codec, docs: seq<DocEntry>)
    ensures Enhance(Advanced.Generator(false), cache, client, codec, docs) == Done(docs, cache, [])
    decreases |docs|
  {
    if |docs| > 0 {
      EnhanceDisabled(cache, client, codec, docs[..|docs| - 1]);
      assert docs[..|docs| - 1] + [docs[|docs| - 1]] == docs;
    }
  }

  /** The four outputs, in the order `generateDocumentation` produces them. */
  datatype Kind = Markdown | OpenApi | Postman | ReDoc

  const Kinds: seq<Kind> := [Markdown, OpenApi, Postman, ReDoc]

  /** The `--format` value that selects a kind, besides `all`. */
  function FormatName(k: Kind): string {
    match k
    case Markdown => "markdown"
    case OpenApi => "openapi"
    case Postman => "postman"
    case ReDoc => "redoc"
  }

  predicate Selected(format: string, k: Kind) {
    format == FormatName(k) || format == "all"
  }

  /** What is written: the Markdown text, the OpenAPI document, the Postman
      collection, or the ReDoc page for an OpenAPI document (the page's
      HTML is not modelled). */
  datatype Content =
    | MarkdownText(text: string)
    | OpenApiJson(doc: Json)
    | PostmanJson(collection: Json)
    | ReDocHtml(rendering: Json)

  datatype Write = Write(path: string, content: Content)

  /** The environment a run reads: the application's base path, `app.url`,
      the configured output paths by configuration key, and the string
      helpers of the framework. */
  datatype Environment = Environment(basePath: string, appUrl: string, config: map<string, string>, lib: Inflector)

  function ConfigKey(k: Kind): string {
    match k
    case Markdown => "api-docs.output"
    case OpenApi => "api-docs.openapi_output"
    case Postman => "api-docs.postman_output"
    case ReDoc => "api-docs.redoc_output"
  }

  function DefaultFile(k: Kind): string {
    match k
    case Markdown => "docs/api.md"
    case OpenApi => "docs/api.json"
    case Postman => "docs/api.postman.json"
    case ReDoc => "docs/api.html"
  }

  /** `$customOutput ?: config(key, base_path(file))`: a custom path that
      PHP reads as false (`""` or `"0"`) falls through to the configuration. */
  function OutputPath(env: Environment, custom: Option<string>, k: Kind): (r: string)
    ensures custom.Some? && !EmptyString(custom.value) ==> r == custom.value
    ensures (custom.None? || EmptyString(custom.value)) && ConfigKey(k) in env.config ==>
      r == env.config[ConfigKey(k)]
    ensures (custom.None? || EmptyString(custom.value)) && ConfigKey(k) !in env.config ==>
      r == env.basePath + "/" + DefaultFile(k)
  {
    if custom.Some? && !EmptyString(custom.value) then custom.value
    else if ConfigKey(k) in env.config then env.config[ConfigKey(k)]
    else env.basePath + "/" + DefaultFile(k)
  }

  function Render(env: Environment, docs: seq<DocEntry>, k: Kind): Content {
    match k
    case Markdown => MarkdownText(MarkdownFormatter.Format(docs))
    case OpenApi => OpenApiJson(OpenApiFormatter.Document(env.lib, env.appUrl, docs))
    case Postman => PostmanJson(PostmanFormatter.Collection(env.lib, env.appUrl, docs))
    case ReDoc => ReDocHtml(OpenApiFormatter.Document(env.lib, env.appUrl, docs))
  }

  /** `if ($format === name || $format === 'all')` for one kind. */
  function KindIf(format: string, k: Kind): (r: seq<Kind>)
    ensures forall k' :: k' in r <==> k' == k && Selected(format, k)
    ensures |r| <= 1
  {
    if Selected(format, k) then [k] else []
  }

  /** The kinds a format selects, in output order. */
  function SelectedKinds(format: string): (r: seq<Kind>)
    ensures forall k :: k in r <==> Selected(format, k)
  {
    assert forall k: Kind :: Selected(format, k) ==> k == Markdown || k == OpenApi || k == Postman || k == ReDoc;
    KindIf(format, Markdown) + KindIf(format, OpenApi) + KindIf(format, Postman) + KindIf(format, ReDoc)
  }

  /** The format names differ from each other and from `all`. */
  lemma FormatNamesDistinct(k: Kind, k': Kind)
    ensures FormatName(k) != "all"
    ensures FormatName(k) == FormatName(k') ==> k == k'
  {
    assert FormatName(OpenApi)[0] != FormatName(Postman)[0];
  }

  /** `all` selects the four kinds, in output order. */
  lemma SelectedAll()
    ensures SelectedKinds("all") == Kinds
  {
  }

  /** A value that is neither a kind's name nor `all` selects nothing: the
      command writes no file and still ends with code 0. */
  lemma SelectedNone(format: string)
    requires format != "all" && forall k :: format != FormatName(k)
    ensures SelectedKinds(format) == []
  {
  }

  /** A kind's own name selects that kind and no other. */
  lemma SelectedAlone(k: Kind)
    ensures SelectedKinds(FormatName(k)) == [k]
  {
    FormatNamesDistinct(k, Markdown);
    FormatNamesDistinct(k, OpenApi);
    FormatNamesDistinct(k, Postman);
    FormatNamesDistinct(k, ReDoc);
  }

  /** The writes for the selected kinds, in order. */
  function Writes(env: Environment, docs: seq<DocEntry>, format: string, custom: Option<string>): (r: seq<Write>)
    ensures |r| == |SelectedKinds(format)|
    ensures forall i :: 0 <= i < |r| ==>
      var k := SelectedKinds(format)[i]; r[i] == Write(OutputPath(env, custom, k), Render(env, docs, k))
  {
    var kinds := SelectedKinds(format);
    seq(|kinds|, i requires 0 <= i < |kinds| => Write(OutputPath(env, custom, kinds[i]), Render(env, docs, kinds[i])))
  }

  /** The files on disk after the writes: a later write to a path replaces
      an earlier one. */
  function Files(writes: seq<Write>): map<string, Content>
    decreases |writes|
  {
    if |writes| == 0 then map[]
    else Files(writes[..|writes| - 1])[writes[|writes| - 1].path := writes[|writes| - 1].content]
  }

  /** Every written path is on disk, holding what its last write put there. */
  lemma {:induction false} FilesKeepLastWrite(writes: seq<Write>, i: nat)
    requires i < |writes|
    requires forall j :: i < j < |writes| ==> writes[j].path != writes[i].path
    ensures writes[i].path in Files(writes) && Files(writes)[writes[i].path] == writes[i].content
    decreases |writes|
  {
    if i < |writes| - 1 {
      FilesKeepLastWrite(writes[..|writes| - 1], i);
    }
  }

  /** Writes that all go to one path leave that path holding the last one. */
  lemma {:induction false} SamePathKeepsLast(writes: seq<Write>, path: string)
    requires |writes| > 0
    requires forall i :: 0 <= i < |writes| ==> writes[i].path == path
    ensures Files(writes) == map[path := writes[|writes| - 1].content]
    decreases |writes|
  {
    if |writes| > 1 {
      SamePathKeepsLast(writes[..|writes| - 1], path);
    }
  }

  /** `--output` with `--format=all` sends all four writes to one path, so
      only the ReDoc page is left there. */
  lemma SharedOutputKeepsReDoc(env: Environment, docs: seq<DocEntry>, path: string)
    requires !EmptyString(path)
    ensures Files(Writes(env, docs, "all", Some(path))) == map[path := Render(env, docs, ReDoc)]
  {
    SelectedAll();
    var w := Writes(env, docs, "all", Some(path));
    assert |w| == 4 && w[3].content == Render(env, docs, ReDoc);
    forall i | 0 <= i < |w| ensures w[i].path == path {
      assert w[i].path == OutputPath(env, Some(path), Kinds[i]);
    }
    SamePathKeepsLast(w, path);
  }

  /** `generateDocumentation` as written: the advanced stage when asked for,
      then the selected outputs. The stage fails on any non-empty list, so
      `--advanced` writes nothing. */
  function GenerateDocumentation(env: Environment, cache: Cache, docs: seq<DocEntry>, format: string,
                                 custom: Option<string>, advanced: bool): (r: Run<seq<Write>>)
    ensures !advanced || docs == [] ==> r == Done(Writes(env, docs, format, custom), cache, [])
    ensures advanced && docs != [] ==> r == Crashed(UndefinedMethod, [])
  {
    if !advanced then Done(Writes(env, docs, format, custom), cache, [])
    else
      match EnhanceAsWritten(docs, cache)
      case Crashed(f, calls) => Crashed(f, calls)
      case Done(enhanced, cache', calls) => Done(Writes(env, enhanced, format, custom), cache', calls)
  }

  /** `generateDocumentation` with the corrected advanced stage. */
  function GenerateDocumentationCorrected(env: Environment, g: Advanced.Generator, cache: Cache, client: Client,
                                          codec: Advanced.Codec, docs: seq<DocEntry>, format: string,
                                          custom: Option<string>, advanced: bool): (r: Run<seq<Write>>)
    ensures !advanced ==> r == Done(Writes(env, docs, format, custom), cache, [])
    ensures advanced && !g.enabled ==> r == Done(Writes(env, docs, format, custom), cache, [])
    ensures r.Crashed? ==> advanced && g.enabled && r.fault == CachedBundleNotArray
  {
    if !advanced then Done(Writes(env, docs, format, custom), cache, [])
    else
      EnhanceDisabled(cache, client, codec, docs);
      match Enhance(g, cache, client, codec, docs)
      case Crashed(f, calls) => Crashed(f, calls)
      case Done(enhanced, cache', calls) => Done(Writes(env, enhanced, format, custom), cache', calls)
  }

  /** The command options. */
  datatype Options = Options(format: string, output: Option<string>, advanced: bool, watch: bool)

  /** How `handle` ends: an exit code with the files written, the watch loop
      (which regenerates on every change and never returns), or an
      exception. */
  datatype Outcome =
    | Exited(code: int, writes: seq<Write>, cache: Cache, calls: seq<Call>)
    | Watching(documentation: seq<DocEntry>, cache: Cache, calls: seq<Call>)
    | Aborted(fault: Fault, calls: seq<Call>)

  /** The collaborators `handle` uses. */
  datatype Services = Services(
    codebase: Codebase,
    basic: Basic.Generator,
    advanced: Advanced.Generator,
    client: Client,
    codec: Advanced.Codec,
    env: Environment)

  /** Where `handle` stands once the entries are described: finished early
      (no API routes, an exception while describing, or the watch loop), or
      ready for `generateDocumentation`. */
  datatype Stage =
    | Finished(outcome: Outcome)
    | Ready(docs: seq<DocEntry>, cache: Cache, calls: seq<Call>)

  /** The steps of `handle` before `generateDocumentation`. */
  method Prepare(s: Services, registry: seq<RouteCollector.RawRoute>, cache: Cache, opts: Options)
    returns (stage: Stage)
    ensures var routes := RouteCollector.ApiRecords(registry, s.codebase);
      var d := Documentation(s.codebase, s.basic, cache, s.client, routes);
      stage == if routes == [] then Finished(Exited(0, [], cache, []))
        else if d.Crashed? then Finished(Aborted(d.fault, d.calls))
        else if opts.watch then Finished(Watching(d.value, d.cache, d.calls))
        else Ready(d.value, d.cache, d.calls)
  {
    var routes := RouteCollector.Collect(registry, s.codebase);
    if routes == [] {
      return Finished(Exited(0, [], cache, []));
    }
    var described := DescribeAll(s.codebase, s.basic, cache, s.client, routes);
    if described.Crashed? {
      return Finished(Aborted(described.fault, described.calls));
    }
    if opts.watch {
      return Finished(Watching(described.value, described.cache, described.calls));
    }
    return Ready(described.value, described.cache, described.calls);
  }

  /** `handle` as written: no API routes exits with 0; otherwise a run
      without `--advanced` exits with 0 after writing the selected outputs,
      and a run with it ends in the undefined-method error, having written
      nothing. The advanced generator is never reached, so only the basic
      one calls the client. */
  method Handle(s: Services, registry: seq<RouteCollector.RawRoute>, cache: Cache, opts: Options)
    returns (outcome: Outcome)
    ensures RouteCollector.ApiRecords(registry, s.codebase) == [] ==> outcome == Exited(0, [], cache, [])
    ensures outcome.Exited? ==> outcome.code == 0
    ensures outcome.Watching? ==> opts.watch
    ensures var routes := RouteCollector.ApiRecords(registry, s.codebase);
      var d := Documentation(s.codebase, s.basic, cache, s.client, routes);
      routes != [] && d.Crashed? ==> outcome == Aborted(d.fault, d.calls)
    ensures var routes := RouteCollector.ApiRecords(registry, s.codebase);
      var d := Documentation(s.codebase, s.basic, cache, s.client, routes);
      routes != [] && d.Done? && opts.watch ==> outcome == Watching(d.value, d.cache, d.calls)
    ensures var routes := RouteCollector.ApiRecords(registry, s.codebase);
      var d := Documentation(s.codebase, s.basic, cache, s.client, routes);
      routes != [] && d.Done? && !opts.watch && !opts.advanced ==>
        outcome == Exited(0, Writes(s.env, d.value, opts.format, opts.output), d.cache, d.calls)
    ensures var routes := RouteCollector.ApiRecords(registry, s.codebase);
      var d := Documentation(s.codebase, s.basic, cache, s.client, routes);
      routes != [] && d.Done? && !opts.watch && opts.advanced ==> outcome == Aborted(UndefinedMethod, d.calls)
    ensures !s.basic.enabled ==> outcome.calls == []
  {
    var stage := Prepare(s, registry, cache, opts);
    if stage.Finished? {
      return stage.outcome;
    }
    var generated := GenerateDocumentation(s.env, stage.cache, stage.docs, opts.format, opts.output, opts.advanced);
    assert generated.Done? ==> stage.calls + generated.calls == stage.calls;
    match generated
    case Crashed(f, calls) =>
      outcome := Aborted(f, stage.calls + calls);
    case Done(writes, cache', calls) =>
      outcome := Exited(0, writes, cache', stage.calls + calls);
  }

  /** `handle` with the corrected advanced stage: with the advanced generator
      disabled or not asked for, a run that completes the description loop
      exits with 0 and writes the outputs of the entries as described. */
  method HandleCorrected(s: Services, registry: seq<RouteCollector.RawRoute>, cache: Cache, opts: Options)
    returns (outcome: Outcome)
    ensures RouteCollector.ApiRecords(registry, s.codebase) == [] ==> outcome == Exited(0, [], cache, [])
    ensures outcome.Exited? ==> outcome.code == 0
    ensures outcome.Watching? ==> opts.watch
    ensures var routes := RouteCollector.ApiRecords(registry, s.codebase);
      var d := Documentation(s.codebase, s.basic, cache, s.client, routes);
      routes != [] && d.Crashed? ==> outcome == Aborted(d.fault, d.calls)
    ensures var routes := RouteCollector.ApiRecords(registry, s.codebase);
      var d := Documentation(s.codebase, s.basic, cache, s.client, routes);
      routes != [] && d.Done? && opts.watch ==> outcome == Watching(d.value, d.cache, d.calls)
    ensures var routes := RouteCollector.ApiRecords(registry, s.codebase);
      var d := Documentation(s.codebase, s.basic, cache, s.client, routes);
      routes != [] && d.Done? && !opts.watch && (!opts.advanced || !s.advanced.enabled) ==>
        outcome == Exited(0, Writes(s.env, d.value, opts.format, opts.output), d.cache, d.calls)
    ensures var routes := RouteCollector.ApiRecords(registry, s.codebase);
      var d := Documentation(s.codebase, s.basic, cache, s.client, routes);
      routes != [] && d.Done? && !opts.watch && opts.advanced ==>
        match Enhance(s.advanced, d.cache, s.client, s.codec, d.value)
        case Done(enhanced, cache', calls) =>
          outcome == Exited(0, Writes(s.env, enhanced, opts.format, opts.output), cache', d.calls + calls)
        case Crashed(f, calls) => outcome == Aborted(f, d.calls + calls)
    ensures !s.basic.enabled && (!opts.advanced || !s.advanced.enabled) ==> outcome.calls == []
  {
    var stage := Prepare(s, registry, cache, opts);
    if stage.Finished? {
      return stage.outcome;
    }
    var generated := GenerateDocumentationCorrected(s.env, s.advanced, stage.cache, s.client, s.codec, stage.docs,
                                                    opts.format, opts.output, opts.advanced);
    assert !opts.advanced || !s.advanced.enabled ==> stage.calls + generated.calls == stage.calls;
    match generated
    case Crashed(f, calls) =>
      outcome := Aborted(f, stage.calls + calls);
    case Done(writes, cache', calls) =>
      outcome := Exited(0, writes, cache', stage.calls + calls);
  }
}

=== FILE: inflector.dfy ===
/** Laravel's string helpers whose rules live outside the package:
    `Str::title`, `Str::snake` and `class_basename`. They are supplied by
    the caller as functions; nothing is assumed about them. */
module Inflector {
  datatype Inflector = Inflector(
    title: string -> string,
    snake: string -> string,
    classBasename: string -> string)
}

=== FILE: json.dfy ===
/** The values the package hands to `json_encode` and gets from
    `json_decode(..., true)`, as a tree; text encoding is not modelled.
    A JSON object is a PHP string-keyed array: an ordered list of
    key/value pairs with distinct keys. */
module JsonTree {
  import opened Optional

  datatype Json =
    | JNull
    | JBool(b: bool)
    | JInt(n: int)
    | JStr(s: string)
    | JList(items: seq<Json>)
    | JObject(fields: seq<(string, Json)>)

  /** `is_array($decoded)`: a decoded JSON list or object. */
  predicate IsArray(j: Json) {
    j.JList? || j.JObject?
  }

  function Keys<V>(a: seq<(string, V)>): (r: seq<string>)
    ensures |r| == |a|
    ensures forall i :: 0 <= i < |a| ==> r[i] == a[i].0
    decreases |a|
  {
    if |a| == 0 then [] else [a[0].0] + Keys(a[1..])
  }

  lemma {:induction false} KeysAppend<V>(a: seq<(string, V)>, b: seq<(string, V)>)
    ensures Keys(a + b) == Keys(a) + Keys(b)
    decreases |a|
  {
    if |a| > 0 {
      KeysAppend(a[1..], b);
      assert (a + b)[1..] == a[1..] + b;
    } else {
      assert a + b == b;
    }
  }

  /** The keys of a literal prefix followed by more pairs. */
  lemma KeysOfThree<V>(a: (string, V), b: (string, V), c: (string, V), rest: seq<(string, V)>)
    ensures Keys([a, b, c] + rest) == [a.0, b.0, c.0] + Keys(rest)
  {
    KeysAppend([a, b, c], rest);
    assert [a, b, c][1..] == [b, c] && [b, c][1..] == [c] && [c][1..] == [];
  }

  lemma KeysOfFour<V>(a: (string, V), b: (string, V), c: (string, V), d: (string, V), rest: seq<(string, V)>)
    ensures Keys([a, b, c, d] + rest) == [a.0, b.0, c.0, d.0] + Keys(rest)
  {
    assert [a, b, c, d] + rest == [a] + ([b, c, d] + rest);
    KeysOfThree(b, c, d, rest);
  }

  predicate UniqueKeys<V>(a: seq<(string, V)>) {
    forall i, j :: 0 <= i < j < |a| ==> a[i].0 != a[j].0
  }

  /** `$a[$k] ?? null`. */
  function Lookup<V>(a: seq<(string, V)>, k: string): (r: Option<V>)
    ensures r.None? <==> k !in Keys(a)
    ensures r.Some? ==> exists i :: 0 <= i < |a| && a[i] == (k, r.value)
    decreases |a|
  {
    if |a| == 0 then None
    else if a[0].0 == k then Some(a[0].1)
    else Lookup(a[1..], k)
  }

  /** `$a[$k] = $v`: overwrites in place when the key exists, appends otherwise. */
  function Set<V>(a: seq<(string, V)>, k: string, v: V): (r: seq<(string, V)>)
    ensures |r| == if k in Keys(a) then |a| else |a| + 1
    decreases |a|
  {
    if |a| == 0 then [(k, v)]
    else if a[0].0 == k then [(k, v)] + a[1..]
    else [a[0]] + Set(a[1..], k, v)
  }

  /** After `$a[$k] = $v`, `$a[$k]` is `$v` and every other key reads as before. */
  lemma {:induction false} SetLookup<V>(a: seq<(string, V)>, k: string, v: V, k': string)
    ensures Lookup(Set(a, k, v), k') == if k' == k then Some(v) else Lookup(a, k')
    decreases |a|
  {
    if |a| > 0 && a[0].0 != k {
      SetLookup(a[1..], k, v, k');
      assert Set(a, k, v)[1..] == Set(a[1..], k, v);
    }
  }

  /** `$a[$k] = $v` keeps the key order: an existing key stays in place, a
      new key goes last. */
  lemma {:induction false} SetKeys<V>(a: seq<(string, V)>, k: string, v: V)
    ensures k in Keys(a) ==> Keys(Set(a, k, v)) == Keys(a)
    ensures k !in Keys(a) ==> Keys(Set(a, k, v)) == Keys(a) + [k]
    decreases |a|
  {
    if |a| > 0 {
      if a[0].0 != k {
        SetKeys(a[1..], k, v);
        var r := Set(a, k, v);
        assert r[1..] == Set(a[1..], k, v);
        assert Keys(r) == [a[0].0] + Keys(r[1..]);
      } else {
        assert Set(a, k, v)[1..] == a[1..];
      }
    }
  }

  /** Distinct keys stay distinct. */
  lemma SetUnique<V>(a: seq<(string, V)>, k: string, v: V)
    requires UniqueKeys(a)
    ensures UniqueKeys(Set(a, k, v))
  {
    var r := Set(a, k, v);
    SetKeys(a, k, v);
    forall i, j | 0 <= i < j < |r| ensures r[i].0 != r[j].0 {
      assert Keys(r)[i] == r[i].0 && Keys(r)[j] == r[j].0;
      if j < |a| {
        assert Keys(a)[i] == a[i].0 && Keys(a)[j] == a[j].0;
      } else {
        assert Keys(a)[i] == a[i].0;
      }
    }
  }

  /** With distinct keys, each pair is found by its key. */
  lemma {:induction false} LookupUnique<V>(a: seq<(string, V)>, i: nat)
    requires UniqueKeys(a) && i < |a|
    ensures Lookup(a, a[i].0) == Some(a[i].1)
    decreases i
  {
    if i > 0 {
      assert a[0].0 != a[i].0;
      assert UniqueKeys(a[1..]) by {
        forall p, q | 0 <= p < q < |a[1..]| ensures a[1..][p].0 != a[1..][q].0 {
          assert a[1..][p] == a[p + 1] && a[1..][q] == a[q + 1];
        }
      }
      LookupUnique(a[1..], i - 1);
      assert a[1..][i - 1] == a[i];
    }
  }

  /** The distinct elements of `s` in order of first occurrence: the key
      order an array gets from assigning the keys of `s` one after another. */
  function Distinct(s: seq<string>): (r: seq<string>)
    ensures forall x :: x in r <==> x in s
    ensures forall i, j :: 0 <= i < j < |r| ==> r[i] != r[j]
    decreases |s|
  {
    if |s| == 0 then []
    else
      var d := Distinct(s[..|s| - 1]);
      if s[|s| - 1] in d then d else d + [s[|s| - 1]]
  }

  /** A key set only under a condition: `if (cond) { $a[k] = v; }` on a key not yet present. */
  function FieldIf(present: bool, field: (string, Json)): (r: seq<(string, Json)>)
    ensures Keys(r) == if present then [field.0] else []
    ensures present ==> r == [field]
  {
    if present then [field] else []
  }

  /** Member access on a JSON object; nothing for any other value. */
  function Member(j: Json, k: string): Option<Json> {
    if j.JObject? then Lookup(j.fields, k) else None
  }
}

=== FILE: markdown_formatter.dfy ===
/** `MarkdownFormatter::format`: a fixed header, then one block of lines per
    documentation entry, joined with line feeds; trailing whitespace is cut
    and exactly one line feed is appended. */
module MarkdownFormatter {
  import opened Text
  import opened Records

  /** One line of the document, before rendering. */
  datatype Line =
    | DocumentTitle
    | Credit
    | Blank
    | Heading(httpMethods: string, uri: string)
    | ControllerLine(controller: string, action: string)
    | NameLine(name: string)
    | Prose(text: string)
    | NoDescription

  /** The text of one line. */
  function Render(l: Line): string {
    match l
    case DocumentTitle => "# API Documentation"
    case Credit => "Generated automatically by **digitalcorehub/laravel-api-docx**."
    case Blank => ""
    case Heading(m, u) => "## " + m + " " + u
    case ControllerLine(c, a) => "- **Controller:** `" + c + "@" + a + "`"
    case NameLine(n) => "- **Name:** `" + n + "`"
    case Prose(t) => t
    case NoDescription => "_No description available._"
  }

  /** The four lines before the first entry. */
  const Header: seq<Line> := [DocumentTitle, Blank, Credit, Blank]

  /** The lines for one entry: the `##` heading, the controller line, the
      name line only for a non-empty name, and the description, or the
      placeholder when the description is blank. */
  function EntryBlock(e: DocEntry): (r: seq<Line>)
    ensures |r| == if e.name == "" then 6 else 7
  {
    [Heading(e.httpMethods, e.uri), Blank, ControllerLine(e.controller, e.action)]
    + (if e.name != "" then [NameLine(e.name)] else [])
    + [Blank, if IsBlank(e.description) then NoDescription else Prose(e.description), Blank]
  }

  /** Line by line: the heading and controller line come first, the name
      line is present exactly when the name is non-empty, and the line
      before the closing blank is the description or, when it is blank,
      the placeholder. */
  lemma EntryBlockLines(e: DocEntry)
    ensures var r := EntryBlock(e);
      r[0] == Heading(e.httpMethods, e.uri) && r[1] == Blank &&
      r[2] == ControllerLine(e.controller, e.action) &&
      (NameLine(e.name) in r <==> e.name != "") &&
      r[|r| - 3] == Blank && r[|r| - 1] == Blank &&
      r[|r| - 2] == if IsBlank(e.description) then NoDescription else Prose(e.description)
  {
  }

  /** The concatenation of `block(x)` over `xs`, in order. */
  function Flatten<T, U>(xs: seq<T>, block: T -> seq<U>): seq<U>
    decreases |xs|
  {
    if |xs| == 0 then [] else Flatten(xs[..|xs| - 1], block) + block(xs[|xs| - 1])
  }

  /** The blocks of all entries, in input order. */
  function Blocks(docs: seq<DocEntry>): seq<Line> {
    Flatten(docs, EntryBlock)
  }

  /** The `$lines` array before it is joined. */
  function Lines(docs: seq<DocEntry>): (r: seq<Line>)
    ensures |r| >= 4 && r[..4] == Header
  {
    Header + Blocks(docs)
  }

  /** The rendered lines, in order. */
  function Rendered(lines: seq<Line>): (r: seq<string>)
    ensures |r| == |lines|
    ensures forall i :: 0 <= i < |lines| ==> r[i] == Render(lines[i])
  {
    seq(|lines|, i requires 0 <= i < |lines| => Render(lines[i]))
  }

  /** The joined document before its end is trimmed. */
  function Untrimmed(docs: seq<DocEntry>): string {
    Join(Rendered(Lines(docs)), "\n")
  }

  /** `format`: `rtrim(implode(PHP_EOL, $lines)) . PHP_EOL`, with `PHP_EOL`
      the line feed. The result is the joined text with its trailing
      whitespace cut, ending in exactly one line feed. */
  function Format(docs: seq<DocEntry>): (r: string)
    ensures |r| >= 2 && r[|r| - 1] == '\n' && r[|r| - 2] !in Whitespace
    ensures StartsWith(Untrimmed(docs), r[..|r| - 1])
    ensures forall i :: |r| - 1 <= i < |Untrimmed(docs)| ==> Untrimmed(docs)[i] in Whitespace
  {
    var text := Untrimmed(docs);
    var lines := Rendered(Lines(docs));
    assert lines[0] == "# API Documentation";
    JoinStartsWith(lines, "\n");
    TrimRightKeepsHead(text, Whitespace);
    TrimRight(text, Whitespace) + "\n"
  }

  /** A join starts with its first part. */
  lemma JoinStartsWith(parts: seq<string>, sep: string)
    requires |parts| > 0
    ensures StartsWith(Join(parts, sep), parts[0])
  {
    var j := Join(parts, sep);
    if |parts| > 1 {
      assert j == parts[0] + (sep + Join(parts[1..], sep));
    }
    assert j[..|parts[0]|] == parts[0];
  }

  /** Right-trimming never removes a first character that is not in the set. */
  lemma TrimRightKeepsHead(s: string, cs: set<char>)
    requires |s| > 0 && s[0] !in cs
    ensures |TrimRight(s, cs)| > 0
  {
  }

  /** Flattening distributes over concatenation of the input. */
  lemma {:induction false} FlattenAppend<T, U>(a: seq<T>, b: seq<T>, block: T -> seq<U>)
    ensures Flatten(a + b, block) == Flatten(a, block) + Flatten(b, block)
    decreases |b|
  {
    if |b| == 0 {
      assert a + b == a;
    } else {
      var init := b[..|b| - 1];
      FlattenAppend(a, init, block);
      var ab := a + b;
      assert ab[..|ab| - 1] == a + init && ab[|ab| - 1] == b[|b| - 1];
    }
  }

  /** Entry `i`'s block sits right after the blocks of the entries before it
      and right before those of the entries after it. */
  lemma BlockAt(docs: seq<DocEntry>, i: nat)
    requires i < |docs|
    ensures Blocks(docs) == Blocks(docs[..i]) + EntryBlock(docs[i]) + Blocks(docs[i + 1..])
  {
    var before, here, after := docs[..i], [docs[i]], docs[i + 1..];
    assert docs == before + (here + after);
    FlattenAppend(before, here + after, EntryBlock);
    FlattenAppend(here, after, EntryBlock);
    assert Flatten(here, EntryBlock) == EntryBlock(docs[i]) by {
      assert here[..0] == [];
    }
  }

  /** Every block is six or seven lines: the line count is fixed by the entries. */
  lemma {:induction false} LineCount(docs: seq<DocEntry>)
    ensures |Lines(docs)| == 4 + 6 * |docs| + |set i | 0 <= i < |docs| && docs[i].name != ""|
    decreases |docs|
  {
    if |docs| > 0 {
      var init := docs[..|docs| - 1];
      LineCount(init);
      var named := set i | 0 <= i < |docs| && docs[i].name != "";
      var namedInit := set i | 0 <= i < |init| && init[i].name != "";
      if docs[|docs| - 1].name != "" {
        assert named == namedInit + {|docs| - 1};
      } else {
        assert named == namedInit;
      }
    }
  }
}

=== FILE: openapi_formatter.dfy ===
/** `OpenApiFormatter`: an OpenAPI 3.0 document whose `paths` map each rooted
    route path to one operation per allowed, lower-cased HTTP method. The
    document is built as a JSON tree; `json_encode` is not modelled. */
module OpenApiFormatter {
  import opened Optional
  import opened Text
  import opened JsonTree
  import opened Records
  import opened Placeholders
  import opened RoutePaths
  import opened Inflector

  /** The methods `buildPaths` keeps, after `strtolower`. */
  const Verbs: set<string> := {"get", "post", "put", "patch", "delete", "head", "options"}

  /** The lower-cased methods `buildOperation` gives a request body. */
  predicate TakesBody(verb: string) {
    verb == "post" || verb == "put" || verb == "patch"
  }

  /** The description's first line, trimmed. */
  function FirstLine(description: string): (r: string)
    ensures '\n' !in r
    ensures r == [] || (r[0] !in Whitespace && r[|r| - 1] !in Whitespace)
  {
    TrimIsSlice(Split(description, '\n')[0], Whitespace);
    Trim(Split(description, '\n')[0], Whitespace)
  }

  /** A text without line feed is its own first line, trimmed. */
  lemma FirstLineOfLine(text: string)
    requires '\n' !in text
    ensures FirstLine(text) == Trim(text, Whitespace)
  {
    SplitNoSeparator(text, '\n');
  }

  /** Whatever follows the first line feed does not matter: the first line
      is the text before it, trimmed. */
  lemma FirstLineOf(head: string, rest: string)
    requires '\n' !in head
    ensures FirstLine(head + "\n" + rest) == Trim(head, Whitespace)
  {
    SplitAround(head, rest, '\n');
  }

  /** A line that is already a trimmed single line is its own first line. */
  lemma FirstLineStays(line: string)
    requires '\n' !in line
    requires line == [] || (line[0] !in Whitespace && line[|line| - 1] !in Whitespace)
    ensures FirstLine(line) == line
  {
    SplitNoSeparator(line, '\n');
    TrimmedStays(line, Whitespace);
  }

  /** `Str::length($line) > 100 ? Str::substr($line, 0, 97) . '...' : $line`. */
  function Shorten(line: string): (r: string)
    ensures |r| <= 100
    ensures |line| <= 100 ==> r == line
    ensures |line| > 100 ==> |r| == 100 && r[..97] == line[..97] && r[97..] == "..."
    ensures forall c :: c in r ==> c in line || c == '.'
    ensures r == [] || (r[0] == line[0] && (r[|r| - 1] == line[|line| - 1] || r[|r| - 1] == '.'))
  {
    if |line| > 100 then line[..97] + "..." else line
  }

  /** `extractSummary`: the description's first line, trimmed, cut to 97
      characters plus `...` when longer than 100. */
  function Summary(description: string): (r: string)
    ensures |r| <= 100
    ensures '\n' !in r
    ensures r == [] || (r[0] !in Whitespace && r[|r| - 1] !in Whitespace)
  {
    Shorten(FirstLine(description))
  }

  /** The summary is the first line when that has at most 100 characters,
      and otherwise its first 97 characters followed by `...`. */
  lemma SummaryValue(description: string)
    ensures var line := FirstLine(description);
      Summary(description) == if |line| <= 100 then line else line[..97] + "..."
  {
  }

  /** Trimming keeps a contiguous slice, so it adds no character. */
  lemma TrimIsSlice(s: string, cs: set<char>)
    ensures forall c :: c in Trim(s, cs) ==> c in s
  {
    var l := TrimLeft(s, cs);
    var r := TrimRight(l, cs);
    assert l == s[|s| - |l|..] && r == l[..|r|];
    forall c | c in r ensures c in s {
      var i :| 0 <= i < |r| && r[i] == c;
      assert l[i] == c;
      assert s[|s| - |l| + i] == c;
    }
  }

  /** A summary is its own summary. */
  lemma SummaryIdempotent(description: string)
    ensures Summary(Summary(description)) == Summary(description)
  {
    var r := Summary(description);
    FirstLineStays(r);
  }

  /** `extractTag`: `Str::title` of the first segment of the URI trimmed of
      `/`, with `-` turned into spaces. `explode` always yields a first
      segment, so the `?? 'api'` default is never used. */
  function Tag(lib: Inflector, uri: string): string {
    lib.title(ReplaceChar(Split(Trim(uri, {'/'}), '/')[0], '-', ' '))
  }

  /** The tag is taken from the URI before its `api/` prefix is removed, so
      every route under `api/` gets the same tag. */
  lemma ApiRoutesShareTag(lib: Inflector, uri: string, rest: string)
    requires uri == "api/" + rest
    ensures Tag(lib, uri) == lib.title("api")
  {
    assert uri == "api" + "/" + rest;
    FirstSegmentOf("api", rest);
    assert ReplaceChar("api", '-', ' ') == "api";
  }

  /** The first segment of `head/rest`, trimmed of `/`, is `head`. */
  lemma FirstSegmentOf(head: string, rest: string)
    requires |head| > 0 && '/' !in head
    ensures Split(Trim(head + "/" + rest, {'/'}), '/')[0] == head
  {
    var t := Trim(head + "/" + rest, {'/'});
    HeadSurvivesTrim(head, rest);
    if |t| == |head| {
      assert t == t[..|head|];
      SplitNoSeparator(t, '/');
    } else {
      assert t == t[..|head|] + [t[|head|]] + t[|head| + 1..];
      SplitAround(head, t[|head| + 1..], '/');
    }
  }

  /** Trimming `/` from `head/rest` keeps `head` and, if anything follows,
      the slash after it. */
  lemma HeadSurvivesTrim(head: string, rest: string)
    requires |head| > 0 && '/' !in head
    ensures var t := Trim(head + "/" + rest, {'/'});
      |t| >= |head| && t[..|head|] == head && (|t| == |head| || t[|head|] == '/')
  {
    var uri := head + "/" + rest;
    assert uri[0] == head[0];
    assert TrimLeft(uri, {'/'}) == uri;
    var t := TrimRight(uri, {'/'});
    assert uri[|head| - 1] == head[|head| - 1];
    assert |t| >= |head|;
    assert t[..|head|] == uri[..|head|] == head;
  }

  /** One entry of `parameters` for a `{name}` placeholder. */
  function PathParameter(name: string): Json {
    JObject([
      ("name", JStr(name)),
      ("in", JStr("path")),
      ("required", JBool(true)),
      ("schema", JObject([("type", JStr("string"))]))])
  }

  /** `extractPathParameters`: one entry per placeholder, in URI order. */
  function PathParameters(uri: string): seq<Json> {
    PerName(uri, PathParameter)
  }

  /** `{"type": "object"}` under `application/json`. */
  const JsonObjectContent: Json :=
    JObject([("application/json", JObject([("schema", JObject([("type", JStr("object"))]))]))])

  const Responses: Json :=
    JObject([("200", JObject([("description", JStr("Successful response")), ("content", JsonObjectContent)]))])

  const RequestBody: Json :=
    JObject([("required", JBool(true)), ("content", JsonObjectContent)])

  /** The fields every operation has. */
  function CoreFields(lib: Inflector, e: DocEntry): seq<(string, Json)> {
    [("summary", JStr(Summary(e.description))),
     ("description", JStr(e.description)),
     ("tags", JList([JStr(Tag(lib, e.uri))])),
     ("responses", Responses)]
  }

  /** The fields of `buildOperation`'s array, in insertion order: summary,
      description, tags and responses always; then `operationId` for a
      non-empty name, `parameters` when the URI has placeholders, and
      `requestBody` for post, put and patch. */
  function OperationFields(lib: Inflector, e: DocEntry, verb: string): (r: seq<(string, Json)>)
    ensures 4 <= |r| <= 7
  {
    CoreFields(lib, e)
    + FieldIf(!EmptyString(e.name), ("operationId", JStr(e.name)))
    + FieldIf(|Names(e.uri)| > 0, ("parameters", JList(PathParameters(e.uri))))
    + FieldIf(TakesBody(verb), ("requestBody", RequestBody))
  }

  /** The keys of an operation, in order: the four fixed ones, then
      `operationId` exactly for a non-empty name, `parameters` exactly when
      the URI has placeholders, `requestBody` exactly for post, put and patch. */
  lemma OperationKeys(lib: Inflector, e: DocEntry, verb: string)
    ensures Keys(OperationFields(lib, e, verb)) ==
      ["summary", "description", "tags", "responses"]
      + (if !EmptyString(e.name) then ["operationId"] else [])
      + (if |Names(e.uri)| > 0 then ["parameters"] else [])
      + (if TakesBody(verb) then ["requestBody"] else [])
  {
    var head := CoreFields(lib, e);
    var a := FieldIf(!EmptyString(e.name), ("operationId", JStr(e.name)));
    var b := FieldIf(|Names(e.uri)| > 0, ("parameters", JList(PathParameters(e.uri))));
    var c := FieldIf(TakesBody(verb), ("requestBody", RequestBody));
    KeysAppend(head, a);
    KeysAppend(head + a, b);
    KeysAppend(head + a + b, c);
    CoreKeys(lib, e);
    assert Keys(OperationFields(lib, e, verb)) == Keys(head) + Keys(a) + Keys(b) + Keys(c);
  }

  lemma CoreKeys(lib: Inflector, e: DocEntry)
    ensures Keys(CoreFields(lib, e)) == ["summary", "description", "tags", "responses"]
  {
  }

  /** `buildOperation`. */
  function Operation(lib: Inflector, e: DocEntry, verb: string): Json {
    JObject(OperationFields(lib, e, verb))
  }

  /** The operations of one path, keyed by method. */
  type Operations = seq<(string, Json)>

  /** `$paths`, keyed by rooted path. */
  type Paths = seq<(string, Operations)>

  /** The inner loop of `buildPaths`: each `|`-separated method, lower-cased,
      that is an allowed verb sets the path's operation for that verb. */
  function AddMethods(ops: Operations, operation: string -> Json, methods: seq<string>): Operations
    decreases |methods|
  {
    if |methods| == 0 then ops
    else
      var before := AddMethods(ops, operation, methods[..|methods| - 1]);
      var verb := ToLower(methods[|methods| - 1]);
      if verb in Verbs then Set(before, verb, operation(verb)) else before
  }

  /** The operation an entry writes under each verb. */
  function OperationsOf(lib: Inflector, e: DocEntry): string -> Json {
    verb => Operation(lib, e, verb)
  }

  /** One iteration of `buildPaths`' outer loop: the path key is created
      empty if missing, then the entry's methods are set in it. */
  function AddEntry(paths: Paths, lib: Inflector, e: DocEntry): (r: Paths)
    ensures Keys(r) == if Rooted(e.uri) in Keys(paths) then Keys(paths) else Keys(paths) + [Rooted(e.uri)]
  {
    var path := Rooted(e.uri);
    var base := if path in Keys(paths) then paths else Set(paths, path, []);
    SetLookup(paths, path, [], path);
    SetKeys(paths, path, []);
    var ops := Lookup(base, path).value;
    var ops' := AddMethods(ops, OperationsOf(lib, e), Split(e.httpMethods, '|'));
    SetKeys(base, path, ops');
    Set(base, path, ops')
  }

  /** `buildPaths`: the entries folded in input order. */
  function BuildPaths(lib: Inflector, docs: seq<DocEntry>): Paths
    decreases |docs|
  {
    if |docs| == 0 then [] else AddEntry(BuildPaths(lib, docs[..|docs| - 1]), lib, docs[|docs| - 1])
  }

  /** Each method lower-cased, in order. */
  function Lowered(methods: seq<string>): (r: seq<string>)
    ensures |r| == |methods|
    ensures forall i :: 0 <= i < |r| ==> r[i] == ToLower(methods[i])
  {
    seq(|methods|, i requires 0 <= i < |methods| => ToLower(methods[i]))
  }

  /** The lower-cased methods of an entry. */
  function LoweredMethods(e: DocEntry): seq<string> {
    Lowered(Split(e.httpMethods, '|'))
  }

  function RootedPaths(docs: seq<DocEntry>): (r: seq<string>)
    ensures |r| == |docs|
    ensures forall i :: 0 <= i < |docs| ==> r[i] == Rooted(docs[i].uri)
  {
    seq(|docs|, i requires 0 <= i < |docs| => Rooted(docs[i].uri))
  }

  /** The reference reading of `buildPaths`: the operation under `path` and
      `verb` comes from the LAST entry whose rooted URI is `path` and whose
      methods include `verb`, if `verb` is allowed at all. */
  function Writer(docs: seq<DocEntry>, path: string, verb: string): Option<DocEntry>
    decreases |docs|
  {
    if |docs| == 0 || verb !in Verbs then None
    else
      var e := docs[|docs| - 1];
      if Rooted(e.uri) == path && verb in LoweredMethods(e) then Some(e)
      else Writer(docs[..|docs| - 1], path, verb)
  }

  /** `$paths[$path][$verb] ?? null`. */
  function OperationAt(paths: Paths, path: string, verb: string): Option<Json> {
    match Lookup(paths, path)
    case None => None
    case Some(ops) => Lookup(ops, verb)
  }

  /** Setting the methods of one entry overwrites exactly the allowed verbs
      among its lower-cased methods. */
  lemma {:induction false} AddMethodsLookup(ops: Operations, operation: string -> Json, methods: seq<string>, verb: string)
    ensures Lookup(AddMethods(ops, operation, methods), verb) ==
      if verb in Verbs && verb in Lowered(methods) then Some(operation(verb)) else Lookup(ops, verb)
    decreases |methods|
  {
    if |methods| > 0 {
      var init := methods[..|methods| - 1];
      AddMethodsLookup(ops, operation, init, verb);
      var last := ToLower(methods[|methods| - 1]);
      assert Lowered(methods) == Lowered(init) + [last];
      if last in Verbs {
        SetLookup(AddMethods(ops, operation, init), last, operation(last), verb);
      }
    }
  }

  /** One entry sets the operations it writes and leaves every other
      (path, verb) pair as it was. */
  lemma AddEntryOperation(paths: Paths, lib: Inflector, e: DocEntry, path: string, verb: string)
    ensures OperationAt(AddEntry(paths, lib, e), path, verb) ==
      if Rooted(e.uri) == path && verb in Verbs && verb in LoweredMethods(e) then Some(Operation(lib, e, verb))
      else OperationAt(paths, path, verb)
  {
    var p := Rooted(e.uri);
    var base := if p in Keys(paths) then paths else Set(paths, p, []);
    BaseOperations(paths, p, path, verb);
    var ops := Lookup(base, p).value;
    var methods := Split(e.httpMethods, '|');
    var ops' := AddMethods(ops, OperationsOf(lib, e), methods);
    SetLookup(base, p, ops', path);
    AddMethodsLookup(ops, OperationsOf(lib, e), methods, verb);
  }

  /** Creating the path key if missing changes no operation, and leaves the
      path's operations readable. */
  lemma BaseOperations(paths: Paths, p: string, path: string, verb: string)
    ensures var base := if p in Keys(paths) then paths else Set(paths, p, []);
      Lookup(base, p).Some? &&
      OperationAt(base, path, verb) == OperationAt(paths, path, verb)
  {
    SetLookup(paths, p, [], path);
    SetLookup(paths, p, [], p);
  }

  /** `buildPaths` has one key per distinct rooted path, in order of first
      appearance. */
  lemma {:induction false} BuildPathsKeys(lib: Inflector, docs: seq<DocEntry>)
    ensures Keys(BuildPaths(lib, docs)) == Distinct(RootedPaths(docs))
    decreases |docs|
  {
    if |docs| > 0 {
      var init := docs[..|docs| - 1];
      BuildPathsKeys(lib, init);
      assert RootedPaths(docs)[..|docs| - 1] == RootedPaths(init);
    }
  }

  /** Each operation in `buildPaths` is the one built from the last entry
      that writes its (path, verb) pair; a pair nobody writes is absent. */
  lemma {:induction false} BuildPathsOperation(lib: Inflector, docs: seq<DocEntry>, path: string, verb: string)
    ensures OperationAt(BuildPaths(lib, docs), path, verb) ==
      match Writer(docs, path, verb)
      case Some(e) => Some(Operation(lib, e, verb))
      case None => None
    decreases |docs|
  {
    if |docs| > 0 {
      var init := docs[..|docs| - 1];
      BuildPathsOperation(lib, init, path, verb);
      AddEntryOperation(BuildPaths(lib, init), lib, docs[|docs| - 1], path, verb);
    }
  }

  /** `json_encode` writes an empty PHP array as a JSON list. */
  function ArrayJson(fields: seq<(string, Json)>): Json {
    if |fields| == 0 then JList([]) else JObject(fields)
  }

  function PathsJson(paths: Paths): (r: Json)
    ensures |paths| > 0 ==> r.JObject? && Keys(r.fields) == Keys(paths)
  {
    ArrayJson(seq(|paths|, i requires 0 <= i < |paths| => (paths[i].0, ArrayJson(paths[i].1))))
  }

  /** `format`'s document before encoding, with the configured `app.url`
      as the server URL. */
  function Document(lib: Inflector, appUrl: string, docs: seq<DocEntry>): (r: Json)
    ensures r.JObject? && |r.fields| == 4
    ensures r.fields[0] == ("openapi", JStr("3.0.0"))
    ensures r.fields[3] == ("paths", PathsJson(BuildPaths(lib, docs)))
  {
    JObject([
      ("openapi", JStr("3.0.0")),
      ("info", JObject([
        ("title", JStr("API Documentation")),
        ("description", JStr("Generated automatically by digitalcorehub/laravel-api-docx")),
        ("version", JStr("1.0.0"))])),
      ("servers", JList([JObject([("url", JStr(appUrl)), ("description", JStr("API Server"))])])),
      ("paths", PathsJson(BuildPaths(lib, docs)))])
  }
}

=== FILE: optional.dfy ===
/** PHP's nullable values (`?string`, `?? default`). */
module Optional {

  datatype Option<+T> = None | Some(value: T) {

    /** `$x ?? default`. */
    function GetOr(default: T): T {
      match this
      case Some(v) => v
      case None => default
    }
  }
}

=== FILE: placeholders.dfy ===
/** The `{name}` placeholder scan of a route URI: the names captured by
    `preg_match_all('/\{([^}]+)\}/', uri)`. Three parts of the package run
    the same scan (advanced parameters, OpenAPI path parameters, Postman
    path variables); they all use `Names` below.

    The regex is matched leftmost-first. At a `{`, the greedy `[^}]+`
    takes every character up to the next `}` (it may include `{`); the
    match succeeds only if that run is non-empty and a `}` follows it, and
    scanning then resumes after the `}`. Otherwise scanning resumes at the
    next character. */
module Placeholders {

  /** The text a placeholder occupies in the URI. */
  function Braced(name: string): string {
    "{" + name + "}"
  }

  /** Length of the longest prefix of `s` containing no `}`. */
  function RunLength(s: string): (k: nat)
    ensures k <= |s|
    ensures forall i :: 0 <= i < k ==> s[i] != '}'
    ensures k < |s| ==> s[k] == '}'
  {
    if |s| == 0 || s[0] == '}' then 0 else 1 + RunLength(s[1..])
  }

  /** The captured names, in URI order; every one is non-empty and free of `}`. */
  function Names(s: string): (r: seq<string>)
    ensures forall i :: 0 <= i < |r| ==> |r[i]| > 0 && '}' !in r[i]
    decreases |s|
  {
    if |s| == 0 then []
    else if s[0] == '{' && 0 < RunLength(s[1..]) < |s| - 1 then
      var k := RunLength(s[1..]);
      [s[1..1 + k]] + Names(s[k + 2..])
    else Names(s[1..])
  }

  /** `name` occurs braced in `s` starting at index `i`. */
  ghost predicate BracedAt(s: string, i: int, name: string) {
    0 <= i && i + |name| + 2 <= |s| && s[i..i + |name| + 2] == Braced(name)
  }

  /** `names` occur in `s` as braced, non-overlapping occurrences, left to right. */
  ghost predicate Embedded(names: seq<string>, s: string)
    decreases |names|
  {
    |names| == 0 ||
    exists i :: BracedAt(s, i, names[0]) && Embedded(names[1..], s[i + |names[0]| + 2..])
  }

  /** Prepending a character keeps every embedding. */
  lemma EmbeddedShift(names: seq<string>, s: string)
    requires |s| > 0
    requires Embedded(names, s[1..])
    ensures Embedded(names, s)
  {
    if |names| > 0 {
      var t := s[1..];
      var n := names[0];
      var i :| BracedAt(t, i, n) && Embedded(names[1..], t[i + |n| + 2..]);
      assert 0 <= i && i + |n| + 2 <= |t|;
      var shifted, window := s[i + 1..i + 1 + |n| + 2], t[i..i + |n| + 2];
      forall j | 0 <= j < |window| ensures shifted[j] == window[j] {
        assert s[i + 1 + j] == t[i + j];
      }
      assert shifted == window;
      assert BracedAt(s, i + 1, n);
      assert s[i + 1 + |n| + 2..] == t[i + |n| + 2..];
    }
  }

  /** The scan reports placeholders that really occur, in the order they occur. */
  lemma {:induction false} NamesInUriOrder(s: string)
    ensures Embedded(Names(s), s)
    decreases |s|
  {
    if |s| > 0 {
      if s[0] == '{' && 0 < RunLength(s[1..]) < |s| - 1 {
        var k := RunLength(s[1..]);
        var n := s[1..1 + k];
        var rest := s[k + 2..];
        NamesInUriOrder(rest);
        assert Names(s) == [n] + Names(rest);
        assert s[0..|n| + 2] == Braced(n);
        assert BracedAt(s, 0, n);
        assert s[0 + |n| + 2..] == rest;
        assert Names(s)[0] == n && Names(s)[1..] == Names(rest);
      } else {
        NamesInUriOrder(s[1..]);
        EmbeddedShift(Names(s[1..]), s);
      }
    }
  }

  /** A URI without `{` has no placeholders. */
  lemma {:induction false} NamesWithoutBrace(s: string)
    requires '{' !in s
    ensures Names(s) == []
    decreases |s|
  {
    if |s| > 0 {
      NamesWithoutBrace(s[1..]);
    }
  }

  /** A brace-free prefix contributes no placeholder. */
  lemma {:induction false} NamesAfterPrefix(prefix: string, s: string)
    requires '{' !in prefix
    ensures Names(prefix + s) == Names(s)
    decreases |prefix|
  {
    if |prefix| > 0 {
      NamesAfterPrefix(prefix[1..], s);
      assert (prefix + s)[1..] == prefix[1..] + s;
    } else {
      assert prefix + s == s;
    }
  }

  /** The scan stops at the first well-formed placeholder after a brace-free
      prefix and continues after it: the defining step of `preg_match_all`. */
  lemma {:induction false} NamesStep(prefix: string, name: string, rest: string)
    requires '{' !in prefix
    requires |name| > 0 && '}' !in name
    ensures Names(prefix + Braced(name) + rest) == [name] + Names(rest)
    decreases |prefix|
  {
    var s := prefix + Braced(name) + rest;
    if |prefix| == 0 {
      assert s == "{" + name + "}" + rest;
      assert s[1..] == name + "}" + rest;
      RunLengthOf(name, rest);
      assert s[1..1 + |name|] == name;
      assert s[|name| + 2..] == rest;
    } else {
      NamesStep(prefix[1..], name, rest);
      assert s[1..] == prefix[1..] + Braced(name) + rest;
    }
  }

  lemma {:induction false} RunLengthOf(name: string, rest: string)
    requires '}' !in name
    ensures RunLength(name + "}" + rest) == |name|
    decreases |name|
  {
    if |name| > 0 {
      RunLengthOf(name[1..], rest);
      assert (name + "}" + rest)[1..] == name[1..] + "}" + rest;
    } else {
      assert name + "}" + rest == "}" + rest;
    }
  }

  /** One value per captured name, in URI order: the loop or `array_map`
      over `$matches[1]` that each caller of the scan runs. */
  function PerName<T>(uri: string, each: string -> T): (r: seq<T>)
    ensures |r| == |Names(uri)|
    ensures forall i :: 0 <= i < |r| ==> r[i] == each(Names(uri)[i])
  {
    var names := Names(uri);
    seq(|names|, i requires 0 <= i < |names| => each(names[i]))
  }

  /** A route template: brace-free literal pieces with one placeholder
      between each two, `pieces[0]{names[0]}pieces[1]...`. */
  function Template(pieces: seq<string>, names: seq<string>): string
    requires |pieces| == |names| + 1
    decreases |names|
  {
    if |names| == 0 then pieces[0]
    else pieces[0] + Braced(names[0]) + Template(pieces[1..], names[1..])
  }

  /** The scan gives back exactly the names a template was built from, in
      order. */
  lemma {:induction false} NamesOfTemplate(pieces: seq<string>, names: seq<string>)
    requires |pieces| == |names| + 1
    requires forall i :: 0 <= i < |pieces| ==> '{' !in pieces[i]
    requires forall i :: 0 <= i < |names| ==> |names[i]| > 0 && '}' !in names[i]
    ensures Names(Template(pieces, names)) == names
    decreases |names|
  {
    if |names| == 0 {
      NamesWithoutBrace(pieces[0]);
    } else {
      NamesOfTemplate(pieces[1..], names[1..]);
      NamesStep(pieces[0], names[0], Template(pieces[1..], names[1..]));
    }
  }
}

=== FILE: postman_formatter.dfy ===
/** `PostmanFormatter`: a Postman v2.1 collection with one folder per
    controller, in order of first appearance, holding one request per
    entry of that controller, in input order. The collection is built as a
    JSON tree; `json_encode` is not modelled. */
module PostmanFormatter {
  import opened Optional
  import opened Text
  import opened JsonTree
  import opened Records
  import opened Placeholders
  import opened RoutePaths
  import opened Inflector

  /** `$grouped`: controller name to its entries. */
  type Groups = seq<(string, seq<DocEntry>)>

  /** `$grouped[$controller][] = $route`. */
  function AddToGroup(groups: Groups, e: DocEntry): Groups {
    Set(groups, e.controller, Lookup(groups, e.controller).GetOr([]) + [e])
  }

  /** `groupByController`: the entries folded in input order. */
  function GroupByController(docs: seq<DocEntry>): Groups
    decreases |docs|
  {
    if |docs| == 0 then [] else AddToGroup(GroupByController(docs[..|docs| - 1]), docs[|docs| - 1])
  }

  /** The reference grouping: the entries of one controller, in input order. */
  function OfController(docs: seq<DocEntry>, controller: string): (r: seq<DocEntry>)
    ensures forall e :: e in r <==> e in docs && e.controller == controller
    decreases |docs|
  {
    if |docs| == 0 then []
    else
      var before := OfController(docs[..|docs| - 1], controller);
      var e := docs[|docs| - 1];
      assert forall x :: x in docs <==> x in docs[..|docs| - 1] || x == e;
      if e.controller == controller then before + [e] else before
  }

  function Controllers(docs: seq<DocEntry>): (r: seq<string>)
    ensures |r| == |docs|
    ensures forall i :: 0 <= i < |docs| ==> r[i] == docs[i].controller
  {
    seq(|docs|, i requires 0 <= i < |docs| => docs[i].controller)
  }

  /** The grouping has one key per distinct controller, in order of first
      appearance. */
  lemma {:induction false} GroupKeys(docs: seq<DocEntry>)
    ensures Keys(GroupByController(docs)) == Distinct(Controllers(docs))
    decreases |docs|
  {
    if |docs| > 0 {
      var init, e := docs[..|docs| - 1], docs[|docs| - 1];
      GroupKeys(init);
      var groups := GroupByController(init);
      SetKeys(groups, e.controller, Lookup(groups, e.controller).GetOr([]) + [e]);
      var cs := Controllers(docs);
      assert cs[..|cs| - 1] == Controllers(init);
    }
  }

  /** A controller that no entry names has no entries. */
  lemma NoEntriesOf(docs: seq<DocEntry>, controller: string)
    requires controller !in Controllers(docs)
    ensures OfController(docs, controller) == []
  {
  }

  /** Each controller's key holds exactly that controller's entries, in
      input order; a controller no entry names has no key. */
  lemma {:induction false} GroupLookup(docs: seq<DocEntry>, controller: string)
    ensures Lookup(GroupByController(docs), controller) ==
      if controller in Controllers(docs) then Some(OfController(docs, controller)) else None
    decreases |docs|
  {
    if |docs| > 0 {
      var init, e := docs[..|docs| - 1], docs[|docs| - 1];
      var groups := GroupByController(init);
      var cs := Controllers(docs);
      assert cs == Controllers(init) + [e.controller];
      var v := Lookup(groups, e.controller).GetOr([]) + [e];
      SetLookup(groups, e.controller, v, controller);
      if controller == e.controller {
        GroupLookup(init, e.controller);
        if e.controller !in Controllers(init) {
          NoEntriesOf(init, e.controller);
        }
      } else {
        GroupLookup(init, controller);
      }
    }
  }

  /** `$route['controller'] ?? 'Unknown'` never applies: every entry has a
      controller string. Each entry lands in the folder of its controller. */
  lemma EntryInItsGroup(docs: seq<DocEntry>, i: nat)
    requires i < |docs|
    ensures Lookup(GroupByController(docs), docs[i].controller).Some?
    ensures docs[i] in Lookup(GroupByController(docs), docs[i].controller).value
  {
    GroupLookup(docs, docs[i].controller);
    assert Controllers(docs)[i] == docs[i].controller;
  }

  /** `json_encode(['example' => 'data'], JSON_PRETTY_PRINT)`. */
  const ExampleBody := "{\n    \"example\": \"data\"\n}"

  const Body: Json := JObject([
    ("mode", JStr("raw")),
    ("raw", JStr(ExampleBody)),
    ("options", JObject([("raw", JObject([("language", JStr("json"))]))]))])

  const Headers: Json := JList([
    JObject([("key", JStr("Accept")), ("value", JStr("application/json")), ("type", JStr("text"))]),
    JObject([("key", JStr("Content-Type")), ("value", JStr("application/json")), ("type", JStr("text"))])])

  const BaseUrl := "{{base_url}}"

  /** The verb word of a request name. */
  function ActionWord(verb: string): string {
    if verb == "GET" then "List"
    else if verb == "POST" then "Create"
    else if verb == "PUT" || verb == "PATCH" then "Update"
    else if verb == "DELETE" then "Delete"
    else "Action"
  }

  /** `$segments[1] ?? 'resource'` over the raw URI trimmed of `/`. */
  function Resource(uri: string): string {
    var segments := Split(Trim(uri, {'/'}), '/');
    if |segments| > 1 then segments[1] else "resource"
  }

  /** `generateRequestName`. */
  function RequestName(route: DocEntry): string {
    ActionWord(FirstMethod(route.httpMethods)) + " " + Resource(route.uri)
  }

  /** A separator-free head followed by nothing or by the separator is the
      first piece. */
  lemma FirstPiece(head: string, rest: string, c: char)
    requires c !in head
    requires rest == [] || rest[0] == c
    ensures Split(head + rest, c)[0] == head
  {
    if rest == [] {
      assert head + rest == head;
      SplitNoSeparator(head, c);
    } else {
      assert head + rest == head + [c] + rest[1..];
      SplitAround(head, rest[1..], c);
    }
  }

  /** For `api/<resource>` and `api/<resource>/...`, the name's resource is
      the segment right after `api`. */
  lemma ResourceOfApiRoute(resource: string, rest: string)
    requires |resource| > 0 && '/' !in resource
    requires rest == [] || (rest[0] == '/' && rest[|rest| - 1] != '/')
    ensures Resource("api/" + resource + rest) == resource
  {
    var uri := "api/" + resource + rest;
    var tail := resource + rest;
    assert uri == "api" + ['/'] + tail;
    assert uri[0] == 'a';
    assert uri[|uri| - 1] == if rest == [] then resource[|resource| - 1] else rest[|rest| - 1];
    TrimmedStays(uri, {'/'});
    SplitAround("api", tail, '/');
    FirstPiece(resource, rest, '/');
  }

  /** `url.path`: the rooted URI trimmed of `/` and cut at each `/`. */
  function PathSegments(uri: string): seq<string> {
    Split(Trim(Rooted(uri), {'/'}), '/')
  }

  /** The path segments joined with `/` give back the trimmed rooted path. */
  lemma PathSegmentsRejoin(uri: string)
    ensures Join(PathSegments(uri), "/") == Trim(Rooted(uri), {'/'})
  {
    JoinSplit(Trim(Rooted(uri), {'/'}), '/');
  }

  function Strings(ss: seq<string>): (r: seq<Json>)
    ensures |r| == |ss|
    ensures forall i :: 0 <= i < |ss| ==> r[i] == JStr(ss[i])
  {
    seq(|ss|, i requires 0 <= i < |ss| => JStr(ss[i]))
  }

  /** One entry of `url.variable`. */
  function Variable(name: string): Json {
    JObject([("key", JStr(name)), ("value", JStr("example")), ("description", JStr("The " + name + " parameter"))])
  }

  /** `extractPathVariables` mapped to variables, in URI order. */
  function Variables(uri: string): seq<Json> {
    PerName(uri, Variable)
  }

  /** The `url` array: `raw`, `host`, `path`, then `variable` only when the
      URI has placeholders. */
  function UrlFields(uri: string): seq<(string, Json)> {
    [("raw", JStr(BaseUrl + Rooted(uri))),
     ("host", JList([JStr(BaseUrl)])),
     ("path", JList(Strings(PathSegments(uri))))]
    + FieldIf(|Names(uri)| > 0, ("variable", JList(Variables(uri))))
  }

  /** The `request` array: method, header, url, description, then `body`
      only for POST, PUT and PATCH. */
  function RequestFields(route: DocEntry): seq<(string, Json)> {
    var verb := FirstMethod(route.httpMethods);
    [("method", JStr(verb)),
     ("header", Headers),
     ("url", JObject(UrlFields(route.uri))),
     ("description", JStr(route.description))]
    + FieldIf(HasBody(verb), ("body", Body))
  }

  /** The url carries a `variable` list exactly when the URI has a
      placeholder. */
  lemma UrlKeys(uri: string)
    ensures Keys(UrlFields(uri)) == ["raw", "host", "path"] + (if |Names(uri)| > 0 then ["variable"] else [])
  {
    KeysOfThree(("raw", JStr(BaseUrl + Rooted(uri))),
                ("host", JList([JStr(BaseUrl)])),
                ("path", JList(Strings(PathSegments(uri)))),
                FieldIf(|Names(uri)| > 0, ("variable", JList(Variables(uri)))));
  }

  /** The request carries a `body` exactly for POST, PUT and PATCH. */
  lemma RequestKeys(route: DocEntry)
    ensures Keys(RequestFields(route)) ==
      ["method", "header", "url", "description"] + (if HasBody(FirstMethod(route.httpMethods)) then ["body"] else [])
  {
    var verb := FirstMethod(route.httpMethods);
    KeysOfFour(("method", JStr(verb)),
               ("header", Headers),
               ("url", JObject(UrlFields(route.uri))),
               ("description", JStr(route.description)),
               FieldIf(HasBody(verb), ("body", Body)));
  }

  /** `buildRequest`. */
  function Request(route: DocEntry): Json {
    JObject([("name", JStr(RequestName(route))), ("request", JObject(RequestFields(route)))])
  }

  /** `formatControllerName`: `title(snake(str_replace('Controller', '', class_basename($c))))`. */
  function FolderName(lib: Inflector, controller: string): string {
    lib.title(lib.snake(RemoveAll(lib.classBasename(controller), "Controller")))
  }

  function Requests(routes: seq<DocEntry>): (r: seq<Json>)
    ensures |r| == |routes|
    ensures forall i :: 0 <= i < |routes| ==> r[i] == Request(routes[i])
  {
    seq(|routes|, i requires 0 <= i < |routes| => Request(routes[i]))
  }

  /** One folder of `buildItems`. */
  function Folder(lib: Inflector, controller: string, routes: seq<DocEntry>): Json {
    JObject([
      ("name", JStr(FolderName(lib, controller))),
      ("description", JStr("Routes for " + controller)),
      ("item", JList(Requests(routes)))])
  }

  /** `buildItems`: one folder per group, in group order. */
  function Items(lib: Inflector, docs: seq<DocEntry>): (r: seq<Json>)
    ensures |r| == |GroupByController(docs)|
  {
    var groups := GroupByController(docs);
    seq(|groups|, i requires 0 <= i < |groups| => Folder(lib, groups[i].0, groups[i].1))
  }

  /** Folder `i` is named after the `i`-th distinct controller and lists
      that controller's requests in input order; there is one folder per
      distinct controller. */
  lemma ItemsSpec(lib: Inflector, docs: seq<DocEntry>, i: nat)
    requires i < |Distinct(Controllers(docs))|
    ensures |Items(lib, docs)| == |Distinct(Controllers(docs))|
    ensures var c := Distinct(Controllers(docs))[i];
      Items(lib, docs)[i] == Folder(lib, c, OfController(docs, c))
  {
    var groups := GroupByController(docs);
    var c := Distinct(Controllers(docs))[i];
    GroupKeys(docs);
    GroupLookup(docs, c);
    assert Keys(groups)[i] == groups[i].0 == c;
    assert UniqueKeys(groups) by {
      forall p, q | 0 <= p < q < |groups| ensures groups[p].0 != groups[q].0 {
        assert Keys(groups)[p] == groups[p].0 && Keys(groups)[q] == groups[q].0;
      }
    }
    LookupUnique(groups, i);
  }

  /** The `info` block. */
  const Info: Json := JObject([
    ("name", JStr("API Documentation")),
    ("description", JStr("Generated automatically by digitalcorehub/laravel-api-docx")),
    ("schema", JStr("https://schema.getpostman.com/json/collection/v2.1.0/collection.json")),
    ("version", JStr("1.0.0"))])

  /** The collection variable `base_url`, set to the configured `app.url`. */
  function BaseUrlVariable(appUrl: string): Json {
    JObject([("key", JStr("base_url")), ("value", JStr(appUrl)), ("type", JStr("string"))])
  }

  /** `format`'s collection before encoding: the info block, one folder per
      controller and the `base_url` variable. */
  function Collection(lib: Inflector, appUrl: string, docs: seq<DocEntry>): (r: Json)
    ensures r.JObject? && Keys(r.fields) == ["info", "item", "variable"]
    ensures r.fields[1].1 == JList(Items(lib, docs))
    ensures r.fields[2].1 == JList([BaseUrlVariable(appUrl)])
  {
    JObject([("info", Info), ("item", JList(Items(lib, docs))), ("variable", JList([BaseUrlVariable(appUrl)]))])
  }
}

=== FILE: records.dfy ===
/** The records that flow through the pipeline: the route record the
    collector produces, the structured bundle of the advanced generator,
    the documentation entry the formatters consume, and the faults that
    end a run. */
module Records {
  import opened Optional
  import opened JsonTree
  import opened Text

  /** The application's classes as reflection sees them: for each class
      name, its methods and each method's doc comment (`None` when
      `getDocComment()` is false). `class_exists` is membership. */
  type Codebase = map<string, map<string, Option<string>>>

  /** One collected API route. `controller` and `action` (the PHP key
      `method`, the handler method name) are null for
      handlers that are neither `Class@method` nor an invokable class. */
  datatype RouteRecord = RouteRecord(
    uri: string,
    name: string,
    httpMethods: string,
    controller: Option<string>,
    action: Option<string>,
    middleware: seq<string>)

  /** The seven keys the advanced generator produces for one route. */
  datatype Bundle = Bundle(
    description: string,
    summary: string,
    parameters: seq<Json>,
    requestExample: Json,
    responseExample: Json,
    errorResponses: Json,
    tags: seq<string>)

  /** One documentation entry. After the advanced stage the bundle's keys
      are merged in: its `description` replaces the entry's and its other
      six keys are carried in `advanced`. */
  datatype DocEntry = DocEntry(
    httpMethods: string,
    uri: string,
    controller: string,
    action: string,
    name: string,
    description: string,
    advanced: Option<Bundle>)

  /** Errors that escape to the console and end the command. */
  datatype Fault =
    | ClientThrew           // the basic generator does not catch client exceptions
    | CachedBundleNotArray  // a cached advanced bundle that does not decode to an array
    | UndefinedMethod       // a call to a method the class does not define

  /** `strtoupper` of the first `|`-separated token of `http_methods`: the
      method the advanced generator and the Postman export act on. */
  function FirstMethod(httpMethods: string): string {
    ToUpper(Split(httpMethods, '|')[0])
  }

  /** The methods that carry a request body. */
  predicate HasBody(verb: string) {
    verb == "POST" || verb == "PUT" || verb == "PATCH"
  }

  /** PHP's `empty()` on a string: `""` and `"0"`. */
  predicate EmptyString(s: string) {
    s == "" || s == "0"
  }
}

=== FILE: route_collector.dfy ===
/** `RouteCollector::collect`: keeps the registry's routes whose URI starts
    with `api` and normalises each into a route record. */
module RouteCollector {
  import opened Optional
  import opened Text
  import opened Records

  /** A route of the framework's registry, through the accessors the
      collector calls: `uri()`, `methods()`, `getName()`, `getActionName()`
      and `middleware()`. */
  datatype RawRoute = RawRoute(
    uri: string,
    methods: seq<string>,
    name: Option<string>,
    actionName: string,
    middleware: seq<string>)

  /** The controller and handler method resolved from an action name. */
  datatype Handler = Handler(controller: Option<string>, action: Option<string>)

  /** The `array_filter` of `filterHttpMethods`: every `HEAD` removed, the
      rest in order. */
  function KeptMethods(methods: seq<string>): (r: seq<string>)
    ensures |r| <= |methods|
    ensures forall m :: m in r <==> m in methods && m != "HEAD"
    decreases |methods|
  {
    if |methods| == 0 then []
    else (if methods[0] == "HEAD" then [] else [methods[0]]) + KeptMethods(methods[1..])
  }

  /** Filtering works piecewise, so the kept methods keep their order. */
  lemma {:induction false} KeptMethodsAppend(a: seq<string>, b: seq<string>)
    ensures KeptMethods(a + b) == KeptMethods(a) + KeptMethods(b)
    decreases |a|
  {
    if |a| > 0 {
      KeptMethodsAppend(a[1..], b);
      assert (a + b)[1..] == a[1..] + b;
    } else {
      assert a + b == b;
    }
  }

  /** `filterHttpMethods`: the methods without `HEAD`, joined with `|`. */
  function FilterHttpMethods(methods: seq<string>): string {
    Join(KeptMethods(methods), "|")
  }

  /** Splitting the joined string on `|` gives back exactly the non-`HEAD`
      methods in their original order (method tokens never contain `|`). */
  lemma FilterHttpMethodsRoundTrip(methods: seq<string>)
    requires forall i :: 0 <= i < |methods| ==> '|' !in methods[i]
    requires KeptMethods(methods) != []
    ensures Split(FilterHttpMethods(methods), '|') == KeptMethods(methods)
    ensures "HEAD" !in Split(FilterHttpMethods(methods), '|')
  {
    var kept := KeptMethods(methods);
    forall i | 0 <= i < |kept| ensures '|' !in kept[i] {
      assert kept[i] in methods;
    }
    SplitJoin(kept, '|');
  }

  /** The branch on the action name: `Class@method` is split with `explode`
      and destructured into its first two pieces; an action naming an
      existing class is an invokable controller; anything else has neither. */
  function ResolveHandler(actionName: string, codebase: Codebase): (h: Handler)
    ensures '@' in actionName ==> h.controller.Some? && h.action.Some?
    ensures '@' !in actionName && actionName in codebase ==>
      h == Handler(Some(actionName), Some("__invoke"))
    ensures '@' !in actionName && actionName !in codebase ==> h == Handler(None, None)
  {
    if '@' in actionName then
      var pieces := Split(actionName, '@');
      Handler(Some(pieces[0]), Some(pieces[1]))
    else if actionName in codebase then
      Handler(Some(actionName), Some("__invoke"))
    else
      Handler(None, None)
  }

  /** For `Class@method`, the controller is the text before the first `@`,
      the method is the text up to the next `@` (or the end), and neither
      contains an `@`. */
  lemma ControllerActionSplit(actionName: string, codebase: Codebase)
    requires '@' in actionName
    ensures var h := ResolveHandler(actionName, codebase);
      '@' !in h.controller.value && '@' !in h.action.value &&
      exists rest :: actionName == h.controller.value + "@" + h.action.value + rest &&
        (rest == "" || rest[0] == '@')
  {
    var pieces := Split(actionName, '@');
    JoinSplit(actionName, '@');
    var rest := if |pieces| == 2 then "" else "@" + Join(pieces[2..], "@");
    assert pieces == [pieces[0]] + pieces[1..];
    assert Join(pieces, "@") == pieces[0] + "@" + Join(pieces[1..], "@");
    assert pieces[1..] == [pieces[1]] + pieces[2..];
    if |pieces| > 2 {
      assert Join(pieces[1..], "@") == pieces[1] + "@" + Join(pieces[2..], "@");
    }
    assert actionName == pieces[0] + "@" + pieces[1] + rest;
  }

  /** The record built for one kept route. */
  function Normalise(route: RawRoute, codebase: Codebase): (r: RouteRecord)
    ensures r.uri == route.uri && r.middleware == route.middleware
    ensures route.name.None? ==> r.name == ""
    ensures route.name.Some? ==> r.name == route.name.value
    ensures r.controller.None? <==> r.action.None?
    ensures r.httpMethods == FilterHttpMethods(route.methods)
    ensures Handler(r.controller, r.action) == ResolveHandler(route.actionName, codebase)
  {
    var h := ResolveHandler(route.actionName, codebase);
    RouteRecord(
      route.uri,
      route.name.GetOr(""),
      FilterHttpMethods(route.methods),
      h.controller,
      h.action,
      route.middleware)
  }

  /** `Str::startsWith($uri, 'api')`: a literal prefix test, so `apiary/x`
      passes too. */
  predicate IsApiRoute(route: RawRoute) {
    StartsWith(route.uri, "api")
  }

  /** Reference definition of `collect`: the kept routes, normalised, in
      registry order. */
  function ApiRecords(registry: seq<RawRoute>, codebase: Codebase): (r: seq<RouteRecord>)
    ensures |r| <= |registry|
    ensures forall i :: 0 <= i < |r| ==> StartsWith(r[i].uri, "api")
    decreases |registry|
  {
    if |registry| == 0 then []
    else
      var last := registry[|registry| - 1];
      ApiRecords(registry[..|registry| - 1], codebase) +
        (if IsApiRoute(last) then [Normalise(last, codebase)] else [])
  }

  /** The reference definition works piecewise: a registry split in two is
      collected as the two halves one after the other. */
  lemma {:induction false} ApiRecordsAppend(a: seq<RawRoute>, b: seq<RawRoute>, codebase: Codebase)
    ensures ApiRecords(a + b, codebase) == ApiRecords(a, codebase) + ApiRecords(b, codebase)
    decreases |b|
  {
    if |b| == 0 {
      assert a + b == a;
    } else {
      var bb := b[..|b| - 1];
      ApiRecordsAppend(a, bb, codebase);
      assert (a + b)[..|a + b| - 1] == a + bb;
      assert (a + b)[|a + b| - 1] == b[|b| - 1];
    }
  }

  /** One route is kept, as one record, exactly when its URI starts with `api`. */
  lemma ApiRecordsSingle(route: RawRoute, codebase: Codebase)
    ensures IsApiRoute(route) ==> ApiRecords([route], codebase) == [Normalise(route, codebase)]
    ensures !IsApiRoute(route) ==> ApiRecords([route], codebase) == []
  {
    assert [route][..0] == [];
  }

  /** Every collected record is the normalised form of an `api` route of
      the registry; by `Normalise`, its methods are that route's methods
      without `HEAD` and its handler is the one resolved from its action. */
  lemma {:induction false} RecordOfRoute(registry: seq<RawRoute>, codebase: Codebase, i: nat)
    requires i < |ApiRecords(registry, codebase)|
    ensures exists j :: 0 <= j < |registry| && IsApiRoute(registry[j])
                        && ApiRecords(registry, codebase)[i] == Normalise(registry[j], codebase)
    decreases |registry|
  {
    var front := registry[..|registry| - 1];
    var rest := ApiRecords(front, codebase);
    if i < |rest| {
      RecordOfRoute(front, codebase, i);
      var j :| 0 <= j < |front| && IsApiRoute(front[j]) && rest[i] == Normalise(front[j], codebase);
      assert front[j] == registry[j];
    } else {
      var j := |registry| - 1;
      assert IsApiRoute(registry[j]) && ApiRecords(registry, codebase)[i] == Normalise(registry[j], codebase);
    }
  }

  /** `collect`: the foreach over the registry. */
  method Collect(registry: seq<RawRoute>, codebase: Codebase) returns (routes: seq<RouteRecord>)
    ensures routes == ApiRecords(registry, codebase)
    ensures registry == [] ==> routes == []
  {
    routes := [];
    var i := 0;
    while i < |registry|
      invariant 0 <= i <= |registry|
      invariant routes == ApiRecords(registry[..i], codebase)
    {
      var route := registry[i];
      assert registry[..i + 1][..i] == registry[..i];
      if StartsWith(route.uri, "api") {
        routes := routes + [Normalise(route, codebase)];
      }
      i := i + 1;
    }
    assert registry[..i] == registry;
  }
}

=== FILE: route_paths.dfy ===
/** The rooted path both export formats derive from a route URI: a leading
    `api/` becomes `/`, and any other URI not starting with `/` gets one. */
module RoutePaths {
  import opened Text
  import opened Placeholders

  /** `convertLaravelRouteToPostmanUrl`, and `convertLaravelRouteToOpenApiPath`
      whose `preg_replace('/\{([^}]+)\}/', '{$1}', ...)` puts every match
      back unchanged. */
  function Rooted(uri: string): (r: string)
    ensures |r| > 0 && r[0] == '/'
    ensures StartsWith(uri, "api/") ==> r == "/" + uri[4..]
    ensures !StartsWith(uri, "api/") && StartsWith(uri, "/") ==> r == uri
    ensures !StartsWith(uri, "api/") && !StartsWith(uri, "/") ==> r == "/" + uri
  {
    if StartsWith(uri, "api/") then "/" + uri[4..]
    else if !StartsWith(uri, "/") then "/" + uri
    else uri
  }

  /** Rooting a rooted path changes nothing. */
  lemma RootedIdempotent(uri: string)
    ensures Rooted(Rooted(uri)) == Rooted(uri)
  {
    var r := Rooted(uri);
    assert !StartsWith(r, "api/");
  }

  /** Rooting keeps every path placeholder, in order: the prefixes it
      removes or adds contain no `{`. */
  lemma RootedKeepsNames(uri: string)
    ensures Names(Rooted(uri)) == Names(uri)
  {
    if StartsWith(uri, "api/") {
      assert uri == "api/" + uri[4..];
      NamesAfterPrefix("api/", uri[4..]);
      NamesAfterPrefix("/", uri[4..]);
    } else if !StartsWith(uri, "/") {
      NamesAfterPrefix("/", uri);
    }
  }
}

=== FILE: text.dfy ===
/** String helpers with the semantics of the PHP built-ins the package uses:
    `explode`/`implode` on one separator character, `trim`/`rtrim` with a
    character list, `str_starts_with`, `strtoupper`/`strtolower` (ASCII only,
    as in PHP 8), `ucfirst` and `str_replace`. Strings are `seq<char>`. */
module Text {

  /** The characters PHP's `trim`/`rtrim` strip when no list is given:
      space, tab, line feed, carriage return, NUL and vertical tab. */
  const Whitespace: set<char> := {' ', '\t', '\n', '\r', '\0', '\U{000B}'}

  predicate StartsWith(s: string, prefix: string) {
    |prefix| <= |s| && s[..|prefix|] == prefix
  }

  /** `ltrim(s, cs)`: drops the longest prefix made only of characters in `cs`. */
  function TrimLeft(s: string, cs: set<char>): (r: string)
    ensures |r| <= |s| && r == s[|s| - |r|..]
    ensures forall i :: 0 <= i < |s| - |r| ==> s[i] in cs
    ensures r != [] ==> r[0] !in cs
    decreases |s|
  {
    if |s| > 0 && s[0] in cs then TrimLeft(s[1..], cs) else s
  }

  /** `rtrim(s, cs)`: drops the longest suffix made only of characters in `cs`. */
  function TrimRight(s: string, cs: set<char>): (r: string)
    ensures |r| <= |s| && r == s[..|r|]
    ensures forall i :: |r| <= i < |s| ==> s[i] in cs
    ensures r != [] ==> r[|r| - 1] !in cs
    decreases |s|
  {
    if |s| > 0 && s[|s| - 1] in cs then TrimRight(s[..|s| - 1], cs) else s
  }

  /** `trim(s, cs)`: both ends. */
  function Trim(s: string, cs: set<char>): (r: string)
    ensures r != [] ==> r[0] !in cs && r[|r| - 1] !in cs
    ensures (forall i :: 0 <= i < |s| ==> s[i] in cs) <==> r == []
  {
    var l := TrimLeft(s, cs);
    TrimRight(l, cs)
  }

  /** A string whose ends are outside the set is its own trim. */
  lemma TrimmedStays(s: string, cs: set<char>)
    requires s == [] || (s[0] !in cs && s[|s| - 1] !in cs)
    ensures Trim(s, cs) == s
  {
  }

  /** `trim(s) === ''`: the string holds nothing but PHP whitespace. */
  predicate IsBlank(s: string) {
    forall i :: 0 <= i < |s| ==> s[i] in Whitespace
  }

  lemma BlankIffTrimmedEmpty(s: string)
    ensures IsBlank(s) <==> Trim(s, Whitespace) == []
  {
  }

  /** `explode(c, s)` for a one-character separator: the pieces between
      consecutive occurrences of `c`; there is always at least one piece. */
  function Split(s: string, c: char): (r: seq<string>)
    ensures |r| >= 1
    ensures forall i :: 0 <= i < |r| ==> c !in r[i]
    ensures |r| == 1 <==> c !in s
    decreases |s|
  {
    if |s| == 0 then [""]
    else
      var rest := Split(s[1..], c);
      if s[0] == c then [""] + rest
      else [[s[0]] + rest[0]] + rest[1..]
  }

  /** `implode(sep, parts)`. */
  function Join(parts: seq<string>, sep: string): string
    decreases |parts|
  {
    if |parts| == 0 then ""
    else if |parts| == 1 then parts[0]
    else parts[0] + sep + Join(parts[1..], sep)
  }

  /** Joining the pieces of `explode` with the separator rebuilds the string. */
  lemma {:induction false} JoinSplit(s: string, c: char)
    ensures Join(Split(s, c), [c]) == s
    decreases |s|
  {
    if |s| > 0 {
      JoinSplit(s[1..], c);
      var rest := Split(s[1..], c);
      if s[0] == c {
        assert Split(s, c) == [""] + rest;
        assert s == [c] + s[1..];
      } else {
        var r := Split(s, c);
        assert r == [[s[0]] + rest[0]] + rest[1..];
        if |rest| == 1 {
          assert Join(r, [c]) == [s[0]] + rest[0];
        } else {
          assert r[1..] == rest[1..];
          assert Join(r, [c]) == [s[0]] + rest[0] + [c] + Join(rest[1..], [c]);
        }
        assert s == [s[0]] + s[1..];
      }
    }
  }

  /** Splitting a join of separator-free pieces gives the pieces back. */
  lemma {:induction false} SplitJoin(parts: seq<string>, c: char)
    requires |parts| >= 1
    requires forall i :: 0 <= i < |parts| ==> c !in parts[i]
    ensures Split(Join(parts, [c]), c) == parts
    decreases |parts|
  {
    if |parts| == 1 {
      SplitNoSeparator(parts[0], c);
    } else {
      SplitJoin(parts[1..], c);
      SplitAround(parts[0], Join(parts[1..], [c]), c);
      assert parts == [parts[0]] + parts[1..];
    }
  }

  lemma {:induction false} SplitNoSeparator(s: string, c: char)
    requires c !in s
    ensures Split(s, c) == [s]
    decreases |s|
  {
    if |s| > 0 {
      SplitNoSeparator(s[1..], c);
      assert s == [s[0]] + s[1..];
    }
  }

  /** A separator-free head followed by the separator splits off as one piece. */
  lemma {:induction false} SplitAround(head: string, tail: string, c: char)
    requires c !in head
    ensures Split(head + [c] + tail, c) == [head] + Split(tail, c)
    decreases |head|
  {
    if |head| == 0 {
      assert head + [c] + tail == [c] + tail;
      assert ([c] + tail)[1..] == tail;
    } else {
      SplitAround(head[1..], tail, c);
      var s := head + [c] + tail;
      assert s[0] == head[0];
      assert s[1..] == head[1..] + [c] + tail;
      assert head == [head[0]] + head[1..];
    }
  }

  /** The first piece is the text before the first separator: a prefix of
      the string followed by the separator or by nothing. */
  lemma {:induction false} SplitHead(s: string, c: char)
    ensures var h := Split(s, c)[0];
      |h| <= |s| && s[..|h|] == h && (|h| == |s| || s[|h|] == c)
    decreases |s|
  {
    if |s| > 0 && s[0] != c {
      SplitHead(s[1..], c);
      var rest := Split(s[1..], c);
      assert Split(s, c)[0] == [s[0]] + rest[0];
      assert s[1..][..|rest[0]|] == rest[0];
      assert s[..|rest[0]| + 1] == [s[0]] + s[1..][..|rest[0]|];
    }
  }

  /** ASCII upper-casing of one character (`strtoupper` is byte-wise and
      ASCII-only since PHP 8.2). */
  function UpperChar(c: char): (r: char)
    ensures 'a' <= c <= 'z' ==> 'A' <= r <= 'Z' && r as int == c as int - 32
    ensures !('a' <= c <= 'z') ==> r == c
  {
    if 'a' <= c <= 'z' then (c as int - 32) as char else c
  }

  function LowerChar(c: char): (r: char)
    ensures 'A' <= c <= 'Z' ==> 'a' <= r <= 'z' && r as int == c as int + 32
    ensures !('A' <= c <= 'Z') ==> r == c
  {
    if 'A' <= c <= 'Z' then (c as int + 32) as char else c
  }

  /** `strtoupper`. */
  function ToUpper(s: string): (r: string)
    ensures |r| == |s|
    ensures forall i :: 0 <= i < |s| ==> r[i] == UpperChar(s[i])
  {
    seq(|s|, i requires 0 <= i < |s| => UpperChar(s[i]))
  }

  /** `strtolower`. */
  function ToLower(s: string): (r: string)
    ensures |r| == |s|
    ensures forall i :: 0 <= i < |s| ==> r[i] == LowerChar(s[i])
  {
    seq(|s|, i requires 0 <= i < |s| => LowerChar(s[i]))
  }

  /** `ucfirst`: upper-cases the first character only. */
  function UcFirst(s: string): (r: string)
    ensures |r| == |s|
    ensures |s| > 0 ==> r[0] == UpperChar(s[0]) && r[1..] == s[1..]
  {
    if |s| == 0 then s else [UpperChar(s[0])] + s[1..]
  }

  /** `str_replace(from, to, s)` for one-character needle and replacement. */
  function ReplaceChar(s: string, from: char, to: char): (r: string)
    ensures |r| == |s|
    ensures forall i :: 0 <= i < |s| ==> r[i] == (if s[i] == from then to else s[i])
  {
    seq(|s|, i requires 0 <= i < |s| => if s[i] == from then to else s[i])
  }

  /** `str_replace(needle, "", s)`: deletes every non-overlapping occurrence
      of a non-empty needle, scanning left to right. */
  function RemoveAll(s: string, needle: string): (r: string)
    requires |needle| > 0
    ensures |r| <= |s|
    decreases |s|
  {
    if |s| == 0 then s
    else if StartsWith(s, needle) then RemoveAll(s[|needle|..], needle)
    else [s[0]] + RemoveAll(s[1..], needle)
  }
}
